=== FILE: README.md ===
# python-executor: the execution core in Dafny

python-executor is a small web service. It accepts a Python script that
defines `main()`, runs the script inside an NsJail sandbox, and answers with
the JSON value `main()` returned and whatever the script printed. This
project models the service's execution core in `app.py` and proves
properties of that model:

- `validate_script`: the admission checks (non-empty string, at most 100000
  characters, a `def main(` definition) and the advisory scan for
  suspicious patterns, which only logs.
- The execution artifact: the script, a blank line, and a driver epilogue
  that calls `main()`. The epilogue reports the result on stderr between
  `__RESULT_START__` and `__RESULT_END__`, or reports an exception as a
  line `__ERROR__:<class>: <message>`.
- The sandbox command: the NsJail argument vector (30-second wall-clock
  limit) and the 35-second outer deadline of `subprocess.run`.
- The output-channel parser and the result classifier. They read the
  sentinels back from stderr, decode the result with `json.loads`, and map
  every outcome to the response dictionary, including the timeout, the
  missing sandbox binary and any other exception.

Python's string operations are modelled in `PyText` (`text.dfy`):

- `str.isspace`, which is also the meaning of `\s`;
- `strip`;
- `in` and `index`;
- `split('\n')`;
- `replace(pat, '')`;
- the newline translation of text-mode capture (`text=True`), which turns
  `\r\n` and a lone `\r` into `\n`.

The four regular expressions are modelled in `Regex` (`regex.dfy`) as token
patterns. `re.search` is defined twice: once as a predicate that allows
every choice of the regular-expression engine, and once as a greedy search.
The two are proved equal for these patterns. `json.loads` is a parameter of
the classifier.

Modules, in dependency order:

- `Options`;
- `PyText`;
- `Regex`;
- `Validation`;
- `Payload`: the artifact and the epilogue;
- `Sandbox`: the command;
- `Channel`: the parser and the classifier;
- `Protocol`: epilogue output read back by the parser;
- `Pipeline`: the whole of `execute_script_with_nsjail`.

## Where the code and its apparent intent differ

In each case the model follows the code. Where the program's own
docstrings or comments state the intent, the item quotes them.

- **Marker order is not checked.** The start and end markers are located
  independently, each by its first occurrence. An end marker before the
  start marker gives an inverted slice. Python makes that slice the empty
  string, so the response is a JSON parse error, not "no result"
  (`Protocol.MarkersInverted`, `Protocol.MarkersOutOfOrder`).
- **The sandbox is weaker than described.** The docstring promises
  "strict isolation" (app.py:48) and the comment above the command
  "comprehensive security settings" (app.py:70). The argument vector passes
  `--disable_proc`, the `--disable_clone_new*` flags for all seven
  namespaces, and `--disable_rlimits`. NsJail therefore isolates little
  beyond the time limit. The model records the vector exactly as written
  (`Sandbox.Command`).
- **Sentinels inside a returned value are misread.** The parser searches
  for the sentinels anywhere in a line, and `json.dumps` can print them
  inside a string.
  - A value whose JSON text holds `__ERROR__:` is reported as a script
    exception (`Protocol.ReturnedErrorSentinelMisread`).
  - A value whose JSON text holds `__RESULT_END__` is cut at that point, so
    the decoder receives a fragment (`Protocol.ReturnedEndMarkerMisread`).
  The round-trip lemmas therefore require a JSON text that holds neither
  sentinel.
- **Only the first line of an exception message is reported.** The error
  line is the first stderr line that holds the sentinel. Stderr is captured
  in text mode, so a `\r` in the message ends that line just as a `\n`
  does. A multi-line exception message therefore loses its later lines,
  and anything written after the error line is ignored
  (`Protocol.RaisedRoundTrip`, `Protocol.CarriageReturnScenario`,
  `Protocol.LaterLinesIgnored`).
- **The outer timeout is unlikely to be the one that fires.** The comment
  on `timeout=35` says it is "Slightly longer than NsJail's timeout"
  (app.py:99). NsJail's own `-t 30` limit therefore most likely ends an
  endless `main()` first. That run then comes back as a completed process
  without a result frame, and is reported as "no result", not with the
  timeout message. `Channel.ProcessOutcome` leaves open which of the two
  happens (`Sandbox.DeadlinesNest` states the nesting).
- **The file can be left behind.** The `finally` clause that removes the
  temporary file (app.py:172-179) belongs to the `try` that starts after
  the file is written (app.py:69). If writing fails, for instance with
  the disk full or on a lone surrogate that cannot be encoded, the file
  created with `delete=False` stays on disk. The model covers only runs
  that reach the launch (`Pipeline.ExecuteScript`).

## Model

| member | source | states |
|---|---|---|
| PyText.Strip | app.py:121 | the result is the input with a whitespace-only prefix and suffix removed, and neither end of the result is whitespace (the `str.strip` contract) |
| PyText.StripUnique | app.py:121 | there is only one string satisfying that contract, so any such string is the strip |
| PyText.StripIdempotent | app.py:121 | stripping twice gives the same as stripping once |
| PyText.StripPadded | app.py:121 | whitespace added on both sides does not change the strip; this is why the newlines around the printed JSON disappear |
| PyText.IndexOf | app.py:119-120 | `str.index` / `in`: an occurrence, and no earlier one; none at all when absent |
| PyText.Split | app.py:109 | `split('\n')`: at least one piece, no piece holds the separator, and the pieces joined by the separator give back the input |
| PyText.SplitUnique | app.py:109 | the pieces of `split` are the only separator-free pieces that join back to the input |
| PyText.SplitAppend | app.py:109 | splitting `a + "\n" + b` gives the pieces of `a` followed by the pieces of `b` |
| PyText.FirstWith | app.py:109 | the first line holding the pattern: it holds it, no earlier line does, and no line does when absent |
| PyText.JoinedOccurrence | app.py:108-109 | a pattern without a newline that occurs in the text occurs in some line, so the `[0]` of the list of error lines cannot fail |
| PyText.PartOccurrence | app.py:108-109 | conversely, a pattern in any line occurs in the text |
| PyText.FirstWithAppend | app.py:109 | the first matching line of two concatenated lists is the first in the first list, or else the first in the second, shifted |
| PyText.RemoveAll | app.py:110 | `replace(pat, '')` never lengthens the text, and removes at least one occurrence when there is one |
| PyText.RemoveAllAbsent | app.py:110 | text without the pattern is left unchanged |
| PyText.RemoveAllFirst | app.py:110 | the text before the first occurrence is kept, that occurrence is deleted, and the rest after it is treated the same way: the single left-to-right pass of `str.replace` |
| PyText.RemoveAllLeading | app.py:110 | deleting the sentinel from a line that starts with it leaves the rest of the line when the rest holds no sentinel |
| PyText.TextCapture | app.py:93-98 | text-mode capture leaves no `\r`, captures text without `\r` unchanged, and never lengthens the text |
| PyText.CaptureAppend | app.py:93-98 | two pieces are captured separately unless the first ends with a `\r` and the second starts with a `\n` |
| PyText.CaptureCrLf | app.py:93-98 | a `\r\n` pair is captured as a single `\n`, whatever surrounds it |
| PyText.CaptureLoneCr | app.py:93-98 | a `\r` not followed by `\n` is captured as one `\n`, whatever precedes it |
| PyText.CaptureKeepsLineEnd | app.py:93-98 | text ending with a newline still ends with one once captured |
| PyText.FirstLine | app.py:109 | the longest prefix holding no line break; when it is shorter than the text, a line break follows it |
| PyText.FirstLineAt | app.py:109 | the first line ends at the first line break |
| PyText.CaptureBreaksLine | app.py:96-109 | capturing a text followed by a newline gives its first line, a newline, then the rest: a `\r` ends a line just as a `\n` does |
| Regex.MatchEnd | app.py:31 | a greedy match end is a real match of the pattern in the regular-expression sense |
| Regex.MatchEndComplete | app.py:31 | for a pattern whose whitespace runs are each followed by a non-whitespace token, the greedy matcher succeeds wherever some match starts |
| Regex.SearchFrom | app.py:42 | true exactly when some start position at or after `i` has a greedy match |
| Regex.SearchCorrect | app.py:42 | the computed `re.search` agrees with the regular-expression meaning in both directions |
| Validation.PatternsUnambiguous | app.py:31-39 | the entry-point pattern and all three advisory patterns satisfy the side condition `Regex.SearchCorrect` needs |
| Validation.MainPatternMeaning | app.py:31 | `def\s+main\s*\(` is found exactly when the script has "def", one or more whitespace characters, "main", optional whitespace and "(" somewhere in it, with no word boundaries |
| Validation.HasMain | app.py:31 | the entry-point check decides that hand-written shape |
| Validation.Scan | app.py:41-43 | the warnings logged are one per advisory whose pattern is found, each drawn from the advisory list, never more than the list |
| Validation.ScanInRuleOrder | app.py:41-43 | the warnings come in the order of the advisory list, and no warning is logged twice |
| Validation.ValidateScript | app.py:22-45 | a script is accepted exactly when it is a non-empty string of at most 100000 characters with a `def main(` definition; the reason for each rejection in the order checked; no warnings on a rejected script; on an accepted script, each warning appears exactly when its pattern is found |
| Validation.AdvisoriesDistinct | app.py:35-39 | the three warning texts are different, so the warning log tells which patterns were found |
| Payload.Artifact | app.py:51-67 | the artifact is the script followed by the fixed trailer (a blank line and the epilogue) |
| Payload.ScriptOf | app.py:51-67 | reading an artifact back gives a script whose artifact is that text; anything not ending with the trailer is not an artifact |
| Payload.ArtifactRoundTrip | app.py:51-67 | the script is recovered unchanged from its artifact |
| Payload.ArtifactInjective | app.py:51-67 | different scripts give different artifacts, and every artifact ends with the same trailer |
| Payload.DriverOutput | app.py:57-67 | the epilogue's own prints write to stderr exactly when they run, that is, when `main()` returned or raised an exception the `except` clause caught; a returned or unserialisable value starts with the start marker, and an exception starts with the error sentinel |
| Payload.DriverExit | app.py:61-67 | the exit status is 0 exactly when a value was returned and printed, 1 after `sys.exit(1)` on either exception path, and unknown exactly when the epilogue was never reached |
| Sandbox.Command | app.py:71-89 | the vector has 17 arguments, begins with the NsJail binary, ends with `--`, the interpreter and the artifact path, and has no earlier `--` |
| Sandbox.Launch | app.py:95-100 | the launch runs that vector with the 35-second outer deadline, longer than NsJail's own limit |
| Sandbox.CommandRunsInterpreter | app.py:71-89 | whatever the artifact path, even one that looks like an option, NsJail runs exactly the interpreter on that path and sees exactly the listed options |
| Sandbox.DeadlinesNest | app.py:74-99 | `-t` carries "30", that is 30 seconds, strictly less than the 35-second `subprocess.run` timeout |
| Channel.ErrorLineExists | app.py:108-109 | whenever stderr holds the error sentinel, some line of it does |
| Channel.ErrorLineOf | app.py:109 | the error line is the first of the `split('\n')` pieces that holds the sentinel: it holds it, no earlier piece does, and it has no newline |
| Channel.PySlice | app.py:121 | a Python slice between in-range indices holds exactly the characters from position `a` up to `b`, and is empty when the range is inverted |
| Channel.ReadChannel | app.py:107-121 | the error sentinel is checked first: an error report exactly when the sentinel is present, with the stripped, sentinel-free error line; a candidate exactly when there is no sentinel and both markers are present, namely the stripped text between the first start marker and the first end marker |
| Channel.NoResult | app.py:139-142 | the "no result" message always starts with the fixed text; with stderr present it is the fixed text, the separator, and then exactly the stripped stderr; it is exactly the fixed text when stderr is empty |
| Channel.Classify | app.py:102-149 | success exactly when there is a candidate and `json.loads` parses it; an error report becomes a script execution error; a `JSONDecodeError` becomes the JSON-serialisable message with its text; any other decoder exception becomes an internal error with empty stdout; no report becomes the "no result" message; the response's stdout is the stripped stdout in every case, success included, except the internal error, where it is empty |
| Channel.Respond | app.py:151-171 | a timeout, a missing binary and any other launch exception each fail with their own message and empty stdout; a completed run is classified from its two streams as captured in text mode |
| Channel.ResponseRevealsCategory | app.py:107-171 | the class read off a response's error text (by prefix) is always the class the outcome belongs to, so no two failure classes can be confused |
| Channel.CompletedClass | app.py:107-149 | the same for completed runs |
| Channel.FixedMessagesClass | app.py:151-164 | the timeout and unavailability messages cannot be mistaken for any other class |
| Channel.InternalClass | app.py:165-171 | a message with the internal-error prefix cannot be mistaken for any other class |
| Protocol.ErrorFreeLinesIgnored | app.py:108-110 | lines without the error sentinel before a text that has one do not change the report |
| Protocol.QuietLinesIgnored | app.py:107-121 | lines holding no sentinel at all never change what the channel says |
| Protocol.AfterQuietOutput | app.py:107-121 | complete lines of script output without sentinels, written before the epilogue's output, are ignored |
| Protocol.AfterErrorFreeOutput | app.py:108-110 | complete lines without the error sentinel, written before an error line, are ignored |
| Protocol.ResultRoundTrip | app.py:118-121 | the candidate read back from the epilogue's result frame is the stripped JSON text it printed, when that text holds neither the end marker nor the error sentinel |
| Protocol.FrameCaptured | app.py:93-98 | the epilogue's result frame is captured unchanged, since the JSON text `json.dumps` prints holds no `\r` |
| Protocol.CaptureBeforeDriver | app.py:93-98 | script output that ends at a line boundary is captured apart from the epilogue's output that follows it |
| Protocol.RaisedRoundTrip | app.py:96-110 | for any class and message, the captured exception report holds the sentinel, and the report read back from it is the first line of `<class>: <message>` (ended by `\n` or `\r`), with the sentinel deleted and stripped; it is the stripped first line itself when that line holds no sentinel |
| Protocol.UnserializableRoundTrip | app.py:96-110 | when `json.dumps` raises after the start marker is out, the report read back is the same as for that exception raised by `main()` |
| Protocol.ReturnedValueDelivered | app.py:96-137 | a value `main()` returned reaches the caller as `json.loads` decodes its JSON text, with the stripped text-mode stdout |
| Protocol.RaisedExceptionReported | app.py:96-115 | an exception from `main()` is reported as a script execution error made from the first line of `<class>: <message>`, with the stripped text-mode stdout |
| Protocol.UnserializableReported | app.py:96-115 | a returned value that `json.dumps` rejects gives exactly the response of the same exception raised by `main()`, not a missing or undecodable result |
| Protocol.AbandonedRunReported | app.py:96-149 | a run that never reached the epilogue is reported as no result, carrying the stripped text-mode stderr if there is any, and the bare message when stderr is empty |
| Protocol.LaterLinesIgnored | app.py:108-110 | once stderr has an error line, later lines do not change the report |
| Protocol.LaterOutputIgnored | app.py:108-115 | and they do not change the response |
| Protocol.OneLineReport | app.py:108-110 | a single line with the sentinel is its own error line |
| Protocol.MarkersInverted | app.py:118-121 | whenever the first end marker begins before the first start marker ends (and there is no error sentinel), the candidate is empty, not "no result" |
| Protocol.MarkersOutOfOrder | app.py:118-121 | for example, an end marker on the line before the start marker gives the empty candidate |
| Protocol.ValueErrorScenario | app.py:108-115 | `raise ValueError('bad')` gives "Script execution error: ValueError: bad" |
| Protocol.CarriageReturnScenario | app.py:96-115 | `raise ValueError('a\rb')` gives "Script execution error: ValueError: a" |
| Protocol.ReturnedDictScenario | app.py:118-130 | returning `{'x': 2}` succeeds with whatever `json.loads` makes of `{"x": 2}` |
| Protocol.ReturnedErrorSentinelMisread | app.py:108-115 | returning the string `__ERROR__:x` is reported as the script error `"x"` |
| Protocol.ReturnedEndMarkerMisread | app.py:118-121 | returning the string `__RESULT_END__` gives the candidate `"`, a lone quote |
| Pipeline.ExecuteScript | app.py:47-179 | the response falls in the failure or success class the outcome calls for; there are exactly three effects: the artifact holding exactly this script is written first, the only launch comes second and runs the sandbox on that file, and the file is removed last |
| Pipeline.ArtifactLifecycle | app.py:51-179 | the artifact holding exactly the script is written first; the only launch runs the interpreter on that file, with a 30-second NsJail limit inside the outer deadline; the file is removed last |

## Left out

- The Flask layer (`/execute`, `/health`, request parsing, HTTP status codes) is not part of this model. Its only input to the core is the `script` field, modelled as `Validation.Submitted`.
- Logging is left out. The advisory warnings are returned as a list instead of being logged, and every other log call is dropped.
- File-system and process I/O is modelled as values, not performed. The temporary file's name is a parameter, and writing it, running `subprocess.run` and removing it are a list of `Pipeline.Effect` values.
- How the child process ends is a parameter, `Channel.ProcessOutcome`. What NsJail and the interpreter actually do with the argument vector is not modelled.
- The source only logs the child's return code, and the response never depends on it. `Payload.DriverExit` states the status the epilogue sets; no other member uses it.
- `json.loads` is a parameter, together with whether it raises `JSONDecodeError` or another exception. So is the JSON text `json.dumps` prints, the `Returned(json)` argument of `Payload.MainRun`.
- Python's exception text (`str(e)` of `JSONDecodeError`, `TimeoutExpired` and so on) is a parameter. It is not computed.
- Exceptions raised while the temporary file is being created or written are not modelled. That code is outside the `try`, so such an exception propagates to the web layer and the `finally` that removes the file never runs (see above).
- A `UnicodeDecodeError` while the child's output is decoded as text is not modelled separately. It is one of the launch exceptions `LaunchFailed` stands for.
- Strings are sequences of code points. Surrogates and encodings are not modelled.
- Pipeline.ExecuteScript: the removal of the file is recorded unconditionally. The source skips it when the file is already gone and only logs a failure to remove it.
- Payload.DriverOutput: an exception raised inside the `except` clause itself (for example by a `__str__` that raises) is not a separate case. Python then prints its own traceback, which quotes the epilogue's `print` line and so holds the error sentinel. Such a run is `Abandoned` here, and its stderr is arbitrary text that `Channel.Respond` still classifies; no Protocol lemma describes it.
- Protocol.AfterQuietOutput: it covers only script output that ends at a line boundary. A partial line written just before the epilogue's output joins the epilogue's first line and is not covered.
- Validation.Scan: it returns the warning texts without the "Potentially unsafe script: " prefix that the log line adds.

=== FILE: channel.dfy ===
/** The output-channel parser and result classifier of
    `execute_script_with_nsjail`: from the captured stdout and stderr of the
    child, or from the way the launch failed, to the response returned to the
    web layer. `json.loads` is a parameter. */
module Channel {
  import opened Options
  import opened PyText
  import opened Payload

  /** What the control channel says, before any decoding. */
  datatype Report =
    /** The error sentinel is present; `message` is what the error line
        says once the sentinels are removed and it is stripped. */
    | ErrorReport(message: string)
    /** Both result markers are present; `candidate` is the stripped text
        between them. */
    | Marked(candidate: string)
    /** Neither an error line nor a pair of result markers. */
    | Unmarked

  /** The outcome of `json.loads`: a value, a `JSONDecodeError` with its
      text, or some other exception (a `RecursionError` on deeply nested
      input), which the generic handler catches. */
  datatype Decoded<J> = Parsed(value: J) | Malformed(reason: string) | Aborted(reason: string)

  /** The dictionary returned to the web layer: `success` is the variant. */
  datatype Response<J> = Succeeded(result: J, stdout: string) | Failed(error: string, stdout: string)

  /** How the `subprocess.run` call ended. A completed run carries the two
      streams as the child wrote them; `Respond` reads them in text mode. */
  datatype ProcessOutcome =
    | Completed(stdout: string, stderr: string)
    /** `subprocess.TimeoutExpired`: the outer deadline passed. */
    | TimedOut
    /** `FileNotFoundError`: the NsJail binary is missing. */
    | BinaryMissing
    /** Any other exception, with its `str`. */
    | LaunchFailed(message: string)

  // The longer messages are written as concatenations of short pieces only
  // so that the verifier can look at their individual characters.
  const ExecutionErrorPrefix := "Script execution error: "
  const NotSerializablePrefix := "main() must return " + "a JSON-serializable object. " + "Parse error: "
  const NoResultMessage := "Script did not return " + "a value or main() was not called"
  const ErrorOutputInfix := ". Error output: "
  const TimeoutMessage := "Script execution timeout" + " (maximum 30 seconds)"
  const UnavailableMessage := "Sandbox environment" + " not available"
  const InternalPrefix := "Internal execution error: "

  /** A pattern with a character the text lacks cannot occur in it. */
  lemma MissingChar(s: string, pat: string, c: char)
    requires c in pat && c !in s
    ensures !Contains(s, pat)
  {
  }

  lemma StartFreeOfEnd()
    ensures !Contains(ResultStart, ResultEnd)
  {
    assert ResultEnd[10] == 'N';
    MissingChar(ResultStart, ResultEnd, 'N');
  }

  lemma SentinelsOneLine()
    ensures '\n' !in ErrorSentinel && '\n' !in ResultStart && '\n' !in ResultEnd
  {
  }

  lemma MarkersFreeOfError()
    ensures !Contains(ResultStart, ErrorSentinel) && !Contains(ResultEnd, ErrorSentinel)
  {
    assert ErrorSentinel[9] == ':';
    MissingChar(ResultStart, ErrorSentinel, ':');
    MissingChar(ResultEnd, ErrorSentinel, ':');
  }

  /** The error line exists whenever the sentinel does, so the `[0]` of the
      list of error lines never fails. */
  lemma ErrorLineExists(stderr: string)
    requires Contains(stderr, ErrorSentinel)
    ensures FirstWith(Split(stderr, '\n'), ErrorSentinel).Some?
  {
    SentinelsOneLine();
    JoinedOccurrence(Split(stderr, '\n'), '\n', ErrorSentinel);
  }

  /** The first `\n`-separated line of `stderr` holding the sentinel. */
  function ErrorLineOf(stderr: string): (line: string)
    requires Contains(stderr, ErrorSentinel)
    ensures Contains(line, ErrorSentinel) && '\n' !in line
    ensures var lines := Split(stderr, '\n');
      exists k :: 0 <= k < |lines| && lines[k] == line && forall j :: 0 <= j < k ==> !Contains(lines[j], ErrorSentinel)
  {
    ErrorLineExists(stderr);
    var lines := Split(stderr, '\n');
    var k := FirstWith(lines, ErrorSentinel).value;
    assert forall j :: 0 <= j < k ==> !Contains(lines[j], ErrorSentinel);
    lines[k]
  }

  /** Python's `s[a:b]` for indices between 0 and `len(s)`: empty when the
      range is inverted. */
  function PySlice(s: string, a: nat, b: nat): (r: string)
    requires a <= |s| && b <= |s|
    ensures |r| == if a <= b then b - a else 0
    ensures forall k :: 0 <= k < |r| ==> r[k] == s[a + k]
  {
    if a <= b then s[a..b] else []
  }

  /** The text between the result markers: from just after the first start
      marker to the first end marker, whichever comes first. */
  function Between(stderr: string): string
    requires Contains(stderr, ResultStart) && Contains(stderr, ResultEnd)
  {
    PySlice(stderr, IndexOf(stderr, ResultStart).value + |ResultStart|, IndexOf(stderr, ResultEnd).value)
  }

  /** The marker scan over stderr. The error sentinel is looked for first. */
  function ReadChannel(stderr: string): (r: Report)
    ensures r.ErrorReport? <==> Contains(stderr, ErrorSentinel)
    ensures r.Marked? <==>
              !Contains(stderr, ErrorSentinel) && Contains(stderr, ResultStart) && Contains(stderr, ResultEnd)
    ensures r.ErrorReport? ==> r.message == Strip(RemoveAll(ErrorLineOf(stderr), ErrorSentinel))
    ensures r.Marked? ==> r.candidate == Strip(Between(stderr))
  {
    if Contains(stderr, ErrorSentinel) then
      ErrorReport(Strip(RemoveAll(ErrorLineOf(stderr), ErrorSentinel)))
    else if Contains(stderr, ResultStart) && Contains(stderr, ResultEnd) then
      Marked(Strip(Between(stderr)))
    else
      Unmarked
  }

  /** The message for a run that left no result. */
  function NoResult(stderr: string): (msg: string)
    ensures StartsWith(msg, NoResultMessage)
    ensures msg == NoResultMessage <==> stderr == []
    ensures stderr != [] ==>
              StartsWith(msg, NoResultMessage + ErrorOutputInfix) &&
              msg[|NoResultMessage + ErrorOutputInfix|..] == Strip(stderr)
  {
    if stderr != [] then
      var head := NoResultMessage + ErrorOutputInfix;
      var msg := head + Strip(stderr);
      assert msg[..|head|] == head && msg[|head|..] == Strip(stderr);
      assert msg[..|NoResultMessage|] == head[..|NoResultMessage|] == NoResultMessage;
      msg
    else NoResultMessage
  }

  /** The classification of a run that completed, from its two streams. */
  function Classify<J>(decode: string -> Decoded<J>, stdout: string, stderr: string): (r: Response<J>)
    ensures r.Succeeded? <==> ReadChannel(stderr).Marked? && decode(ReadChannel(stderr).candidate).Parsed?
    ensures r.Succeeded? ==> r.result == decode(ReadChannel(stderr).candidate).value
    ensures Contains(stderr, ErrorSentinel) ==>
              r == Failed(ExecutionErrorPrefix + ReadChannel(stderr).message, Strip(stdout))
    ensures ReadChannel(stderr).Marked? && decode(ReadChannel(stderr).candidate).Malformed? ==>
              r == Failed(NotSerializablePrefix + decode(ReadChannel(stderr).candidate).reason, Strip(stdout))
    ensures ReadChannel(stderr).Marked? && decode(ReadChannel(stderr).candidate).Aborted? ==>
              r == Failed(InternalPrefix + decode(ReadChannel(stderr).candidate).reason, [])
    ensures ReadChannel(stderr).Unmarked? ==> r == Failed(NoResult(stderr), Strip(stdout))
    ensures r.stdout == (if ReadChannel(stderr).Marked? && decode(ReadChannel(stderr).candidate).Aborted?
                         then [] else Strip(stdout))
  {
    match ReadChannel(stderr)
    case ErrorReport(msg) => Failed(ExecutionErrorPrefix + msg, Strip(stdout))
    case Marked(text) =>
      (match decode(text)
       case Parsed(v) => Succeeded(v, Strip(stdout))
       case Malformed(e) => Failed(NotSerializablePrefix + e, Strip(stdout))
       case Aborted(e) => Failed(InternalPrefix + e, []))
    case Unmarked => Failed(NoResult(stderr), Strip(stdout))
  }

  /** `execute_script_with_nsjail` from the launch onward. */
  function Respond<J>(decode: string -> Decoded<J>, outcome: ProcessOutcome): (r: Response<J>)
    ensures !outcome.Completed? ==> r.Failed? && r.stdout == []
    ensures outcome.TimedOut? ==> r.error == TimeoutMessage
    ensures outcome.BinaryMissing? ==> r.error == UnavailableMessage
    ensures outcome.LaunchFailed? ==> r.error == InternalPrefix + outcome.message
    ensures outcome.Completed? ==>
              r == Classify(decode, TextCapture(outcome.stdout), TextCapture(outcome.stderr))
  {
    match outcome
    case Completed(out, err) => Classify(decode, TextCapture(out), TextCapture(err))
    case TimedOut => Failed(TimeoutMessage, [])
    case BinaryMissing => Failed(UnavailableMessage, [])
    case LaunchFailed(m) => Failed(InternalPrefix + m, [])
  }

  // ---------------------------------------------------------------------------
  // The failure classes can be told apart from the response alone
  // ---------------------------------------------------------------------------

  datatype Category = Success | ScriptRaised | NotSerializable | NoResultProduced | Timeout | Unavailable | Internal

  /** The failure class a caller can read off a response. */
  function CategoryOf<J>(r: Response<J>): Category {
    match r
    case Succeeded(_, _) => Success
    case Failed(e, _) =>
      if StartsWith(e, ExecutionErrorPrefix) then ScriptRaised
      else if StartsWith(e, NotSerializablePrefix) then NotSerializable
      else if StartsWith(e, NoResultMessage) then NoResultProduced
      else if e == TimeoutMessage then Timeout
      else if e == UnavailableMessage then Unavailable
      else Internal
  }

  /** The class each outcome belongs to, in the order of the source's
      checks and `except` clauses:
      deadline, missing sandbox, other launch failure, error sentinel,
      decodable result, undecodable result, nothing. */
  function Expected<J>(decode: string -> Decoded<J>, outcome: ProcessOutcome): Category {
    match outcome
    case TimedOut => Timeout
    case BinaryMissing => Unavailable
    case LaunchFailed(_) => Internal
    case Completed(_, err) => StreamClass(decode, TextCapture(err))
  }

  /** The class of a completed run, from its stderr as read in text mode. */
  function StreamClass<J>(decode: string -> Decoded<J>, err: string): Category {
    if Contains(err, ErrorSentinel) then ScriptRaised
    else if Contains(err, ResultStart) && Contains(err, ResultEnd) then
      match decode(Strip(Between(err)))
      case Parsed(_) => Success
      case Malformed(_) => NotSerializable
      case Aborted(_) => Internal
    else NoResultProduced
  }

  lemma StartsWithConcat(p: string, x: string)
    ensures StartsWith(p + x, p)
  {
    assert (p + x)[..|p|] == p;
  }

  /** A string that starts with `p` neither starts with nor equals a `q` that
      differs from `p` at position `k`. */
  lemma PrefixesClash(a: string, p: string, q: string, k: nat)
    requires StartsWith(a, p) && k < |p| && k < |q| && p[k] != q[k]
    ensures !StartsWith(a, q) && a != q
  {
    assert a[k] == a[..|p|][k] == p[k];
    assert |q| <= |a| ==> a[..|q|][k] == a[k];
  }

  /** Every message prefix names its class unambiguously: no two classes'
      messages can be confused, so the response reveals the class. */
  lemma ResponseRevealsCategory<J>(decode: string -> Decoded<J>, outcome: ProcessOutcome)
    ensures CategoryOf(Respond(decode, outcome)) == Expected(decode, outcome)
  {
    match outcome
    case TimedOut => FixedMessagesClass();
    case BinaryMissing => FixedMessagesClass();
    case LaunchFailed(m) =>
      StartsWithConcat(InternalPrefix, m);
      InternalClass(InternalPrefix + m);
    case Completed(out, err) => CompletedClass(decode, TextCapture(out), TextCapture(err));
  }

  lemma CompletedClass<J>(decode: string -> Decoded<J>, stdout: string, stderr: string)
    ensures CategoryOf(Classify(decode, stdout, stderr)) == StreamClass(decode, stderr)
  {
    var E, S, N := ExecutionErrorPrefix, NotSerializablePrefix, NoResultMessage;
    assert E[0] == 'S' && S[0] == 'm' && N[0] == 'S' && E[7] == 'e' && N[7] == 'd';
    match ReadChannel(stderr)
    case ErrorReport(msg) =>
      StartsWithConcat(E, msg);
    case Marked(text) => {
      match decode(text)
      case Parsed(_) =>
      case Malformed(e) =>
        StartsWithConcat(S, e);
        PrefixesClash(S + e, S, E, 0);
      case Aborted(e) =>
        StartsWithConcat(InternalPrefix, e);
        InternalClass(InternalPrefix + e);
    }
    case Unmarked =>
      var msg := NoResult(stderr);
      PrefixesClash(msg, N, E, 7);
      PrefixesClash(msg, N, S, 0);
  }

  /** The timeout and unavailability messages fall in their own classes. */
  lemma FixedMessagesClass()
    ensures !StartsWith(TimeoutMessage, ExecutionErrorPrefix) && !StartsWith(TimeoutMessage, NotSerializablePrefix)
    ensures !StartsWith(TimeoutMessage, NoResultMessage)
    ensures !StartsWith(UnavailableMessage, ExecutionErrorPrefix) && !StartsWith(UnavailableMessage, NotSerializablePrefix)
    ensures !StartsWith(UnavailableMessage, NoResultMessage) && UnavailableMessage != TimeoutMessage
  {
    var E, S, N := ExecutionErrorPrefix, NotSerializablePrefix, NoResultMessage;
    var T, U := TimeoutMessage, UnavailableMessage;
    assert E[0] == 'S' && S[0] == 'm' && N[0] == 'S' && T[0] == 'S' && U[0] == 'S';
    assert E[7] == 'e' && N[7] == 'd' && T[7] == 'e' && E[17] == 'e' && T[17] == 't';
    assert E[1] == 'c' && N[1] == 'c' && U[1] == 'a' && T[1] == 'c';
    assert T[..|T|] == T && U[..|U|] == U;
    PrefixesClash(T, T, E, 17);
    PrefixesClash(T, T, S, 0);
    PrefixesClash(T, T, N, 7);
    PrefixesClash(U, U, E, 1);
    PrefixesClash(U, U, S, 0);
    PrefixesClash(U, U, N, 1);
    PrefixesClash(U, U, T, 1);
  }

  lemma InternalClass(a: string)
    requires StartsWith(a, InternalPrefix)
    ensures !StartsWith(a, ExecutionErrorPrefix) && !StartsWith(a, NotSerializablePrefix)
    ensures !StartsWith(a, NoResultMessage) && a != TimeoutMessage && a != UnavailableMessage
  {
    var I := InternalPrefix;
    assert I[0] == 'I' && ExecutionErrorPrefix[0] == 'S' && NotSerializablePrefix[0] == 'm';
    assert NoResultMessage[0] == 'S' && TimeoutMessage[0] == 'S' && UnavailableMessage[0] == 'S';
    PrefixesClash(a, I, ExecutionErrorPrefix, 0);
    PrefixesClash(a, I, NotSerializablePrefix, 0);
    PrefixesClash(a, I, NoResultMessage, 0);
    PrefixesClash(a, I, TimeoutMessage, 0);
    PrefixesClash(a, I, UnavailableMessage, 0);
  }
}

=== FILE: options.dfy ===
/** A value that may be absent: a failed search, a missing flag, a string that
    is not an artifact. */
module Options {

  datatype Option<+T> = None | Some(value: T)
}

=== FILE: payload.dfy ===
/** The payload assembler: the text written to the temporary `.py` file, and
    what its driver epilogue writes to the child's stderr, the control
    channel kept apart from the script's own stdout. */
module Payload {
  import opened Options
  import opened PyText

  /** The control-channel sentinels. */
  const ResultStart := "__RESULT_START__"
  const ResultEnd := "__RESULT_END__"
  const ErrorSentinel := "__ERROR__:"

  /** What is written between the user's script and the epilogue. */
  const Separator := "\n\n"

  /** The driver appended after the user's script, line by line as written. */
  const Epilogue :=
    "if __name__ == '__main__':\n" +
    "    import json\n" +
    "    import sys\n" +
    "    try:\n" +
    "        result = main()\n" +
    "        print('" + ResultStart + "', file=sys.stderr)\n" +
    "        print(json.dumps(result), file=sys.stderr)\n" +
    "        print('" + ResultEnd + "', file=sys.stderr)\n" +
    "    except Exception as e:\n" +
    "        print(f'" + ErrorSentinel + "{type(e).__name__}: {str(e)}', file=sys.stderr)\n" +
    "        sys.exit(1)\n"

  const Trailer := Separator + Epilogue

  /** The contents of the execution artifact for `script`. */
  function Artifact(script: string): (a: string)
    ensures |a| == |script| + |Trailer|
    ensures a[..|script|] == script
    ensures a[|script|..] == Trailer
  {
    script + Trailer
  }

  /** The user's script inside an artifact, if `a` is one. */
  function ScriptOf(a: string): (r: Option<string>)
    ensures r.Some? ==> Artifact(r.value) == a
    ensures r.None? ==> |a| < |Trailer| || a[|a| - |Trailer|..] != Trailer
  {
    if |a| >= |Trailer| && a[|a| - |Trailer|..] == Trailer then
      assert a == a[..|a| - |Trailer|] + Trailer;
      Some(a[..|a| - |Trailer|])
    else None
  }

  /** The script is recovered unchanged from its artifact. */
  lemma ArtifactRoundTrip(script: string)
    ensures ScriptOf(Artifact(script)) == Some(script)
  {
    var a := Artifact(script);
    assert a[|a| - |Trailer|..] == Trailer;
    assert a[..|a| - |Trailer|] == script;
  }

  /** Different scripts give different artifacts, and every artifact ends
      with the same trailer whatever the script. */
  lemma ArtifactInjective(s: string, t: string)
    ensures Artifact(s) == Artifact(t) ==> s == t
    ensures Artifact(s)[|s|..] == Artifact(t)[|t|..]
  {
    if Artifact(s) == Artifact(t) {
      ArtifactRoundTrip(s);
      ArtifactRoundTrip(t);
    }
  }

  /** How the user's `main()` ended, as far as the epilogue can tell. */
  datatype MainRun =
    /** `main()` returned a value and `json.dumps` rendered it as `json`. */
    | Returned(json: string)
    /** `main()` raised an exception of class `kind` whose `str` is `message`. */
    | Raised(kind: string, message: string)
    /** `main()` returned a value that `json.dumps` refused with `kind: message`. */
    | Unserializable(kind: string, message: string)
    /** Control never came back to the epilogue: a crash, `sys.exit`, a kill. */
    | Abandoned

  /** The exception line the epilogue prints: sentinel, class name, message. */
  function ErrorLine(kind: string, message: string): string {
    ErrorSentinel + kind + ": " + message
  }

  /** What the epilogue itself writes to stderr. Each `print` adds a newline;
      when `json.dumps` raises, the start marker is already out. */
  function DriverOutput(run: MainRun): (err: string)
    ensures err == [] <==> run.Abandoned?
    ensures run.Returned? || run.Unserializable? ==> StartsWith(err, ResultStart)
    ensures run.Raised? ==> StartsWith(err, ErrorSentinel)
  {
    match run
    case Returned(j) => ResultStart + "\n" + j + "\n" + ResultEnd + "\n"
    case Raised(k, m) => ErrorLine(k, m) + "\n"
    case Unserializable(k, m) => ResultStart + "\n" + ErrorLine(k, m) + "\n"
    case Abandoned => []
  }

  /** The exit status the epilogue sets: 0 after printing a result, 1 from
      `sys.exit(1)`; unknown when control never reached it. */
  function DriverExit(run: MainRun): (code: Option<nat>)
    ensures code == Some(0) <==> run.Returned?
    ensures code.None? <==> run.Abandoned?
    ensures run.Raised? || run.Unserializable? ==> code == Some(1)
  {
    match run
    case Returned(_) => Some(0)
    case Raised(_, _) => Some(1)
    case Unserializable(_, _) => Some(1)
    case Abandoned => None
  }
}

=== FILE: pipeline.dfy ===
/** `execute_script_with_nsjail` as a whole: write the artifact, launch the
    sandbox on it, classify what came back, and remove the artifact. The
    temporary file's name and the way the child ended come from outside;
    the effects on the file system and the process table are returned as a
    list instead of performed. */
module Pipeline {
  import opened Options
  import opened Payload
  import opened Sandbox
  import opened Channel

  /** An effect on the outside world. */
  datatype Effect =
    | WriteArtifact(path: string, contents: string)
    /** The `subprocess.run` call, whether or not the child could start. */
    | Spawn(invocation: Invocation)
    /** The `finally` clause's removal (skipped by the source only when the
        file is already gone, and any failure of it only logged). */
    | RemoveArtifact(path: string)

  datatype Execution<J> = Execution(response: Response<J>, effects: seq<Effect>)

  /** What `execute_script_with_nsjail` does to the outside world for the
      artifact name `path`, in order. */
  function Effects(script: string, path: string): (fx: seq<Effect>)
    ensures |fx| == 3
    ensures fx[0] == WriteArtifact(path, Artifact(script))
    ensures ScriptOf(fx[0].contents) == Some(script)
    ensures forall k :: 0 <= k < |fx| ==> (fx[k].Spawn? <==> k == 1)
    ensures fx[1] == Spawn(Launch(path))
    ensures fx[|fx| - 1] == RemoveArtifact(path)
  {
    ArtifactRoundTrip(script);
    [WriteArtifact(path, Artifact(script)), Spawn(Launch(path)), RemoveArtifact(path)]
  }

  /** `execute_script_with_nsjail(script)`, where `path` is the name the
      temporary file received and `outcome` is how the launch ended. The
      file holding the script is written first, the sandbox is launched
      on it exactly once, the file is removed last on every path that
      reaches the launch, and the response falls in the category the
      outcome calls for. */
  function ExecuteScript<J>(decode: string -> Decoded<J>, script: string, path: string, outcome: ProcessOutcome): (e: Execution<J>)
    ensures CategoryOf(e.response) == Expected(decode, outcome)
    ensures e.response == Respond(decode, outcome)
    ensures |e.effects| == 3
    ensures e.effects[0] == WriteArtifact(path, Artifact(script))
    ensures ScriptOf(e.effects[0].contents) == Some(script)
    ensures forall k :: 0 <= k < |e.effects| ==> (e.effects[k].Spawn? <==> k == 1)
    ensures e.effects[1] == Spawn(Launch(path))
    ensures e.effects[|e.effects| - 1] == RemoveArtifact(path)
  {
    ResponseRevealsCategory(decode, outcome);
    Execution(Respond(decode, outcome), Effects(script, path))
  }

  /** The artifact holding exactly the script comes first, the one launch
      runs the interpreter on that same file with the nested deadlines, and
      the file is removed last. */
  lemma ArtifactLifecycle(script: string, path: string)
    ensures var fx := Effects(script, path);
      && fx[0].WriteArtifact? && fx[0].path == path
      && ScriptOf(fx[0].contents) == Some(script)
      && (forall k :: 0 <= k < |fx| ==> (fx[k].Spawn? <==> k == 1))
      && ProgramOf(fx[1].invocation.argv) == [Interpreter, path]
      && FlagValue(fx[1].invocation.argv, "-t") == Some("30")
      && SandboxTimeLimit < fx[1].invocation.timeoutSeconds
      && fx[|fx| - 1] == RemoveArtifact(path)
  {
    ArtifactRoundTrip(script);
    CommandRunsInterpreter(path);
    DeadlinesNest(path);
  }
}

=== FILE: protocol.dfy ===
/** The control channel end to end: what the parser reads back from what the
    driver epilogue writes, whatever complete lines the script wrote to
    stderr before it. */
module Protocol {
  import opened Options
  import opened PyText
  import opened Payload
  import opened Channel

  /** Text that holds none of the three sentinels. */
  predicate Quiet(s: string) {
    !Contains(s, ErrorSentinel) && !Contains(s, ResultStart) && !Contains(s, ResultEnd)
  }

  /** Stderr written so far ends at a line boundary. */
  predicate WholeLines(s: string) {
    s == [] || s[|s| - 1] == '\n'
  }

  // ---------------------------------------------------------------------------
  // Lines before the driver's output
  // ---------------------------------------------------------------------------

  /** Lines free of the error sentinel do not change which line is the
      error line. */
  lemma ErrorLineAfterCleanLines(a: string, x: string)
    requires !Contains(a, ErrorSentinel) && Contains(x, ErrorSentinel)
    ensures Contains(a + "\n" + x, ErrorSentinel)
    ensures ErrorLineOf(a + "\n" + x) == ErrorLineOf(x)
  {
    SentinelsOneLine();
    var s := a + "\n" + x;
    OccursInRight(a + "\n", x, ErrorSentinel, IndexOf(x, ErrorSentinel).value);
    var p, q := Split(a, '\n'), Split(x, '\n');
    SplitAppend(a, x, '\n');
    assert Split(s, '\n') == p + q;
    NoErrorLine(a);
    ErrorLineExists(x);
    FirstWithAppend(p, q, ErrorSentinel);
    var k := FirstWith(q, ErrorSentinel).value;
    assert (p + q)[|p| + k] == q[k];
  }

  /** Text free of the error sentinel has no error line. */
  lemma NoErrorLine(a: string)
    requires !Contains(a, ErrorSentinel)
    ensures FirstWith(Split(a, '\n'), ErrorSentinel).None?
  {
    var p := Split(a, '\n');
    forall j | 0 <= j < |p|
      ensures !Contains(p[j], ErrorSentinel)
    {
      if Contains(p[j], ErrorSentinel) { PartOccurrence(p, '\n', ErrorSentinel, j); }
    }
  }

  /** A report that has an error line ignores what came before it, so long
      as that held no error sentinel. */
  lemma ErrorFreeLinesIgnored(a: string, x: string)
    requires !Contains(a, ErrorSentinel) && Contains(x, ErrorSentinel)
    ensures ReadChannel(a + "\n" + x) == ReadChannel(x)
  {
    ErrorLineAfterCleanLines(a, x);
  }

  /** Lines holding no sentinel at all never change what the channel says. */
  lemma QuietLinesIgnored(a: string, x: string)
    requires Quiet(a)
    ensures ReadChannel(a + "\n" + x) == ReadChannel(x)
  {
    SentinelsOneLine();
    if Contains(x, ErrorSentinel) {
      ErrorFreeLinesIgnored(a, x);
    } else {
      NotContainsJoined(a, '\n', x, ErrorSentinel);
      MarkersAfterQuietLines(a, x);
    }
  }

  /** The markers keep their relative positions past quiet lines, so the
      text between them is the same. */
  lemma MarkersAfterQuietLines(a: string, x: string)
    requires Quiet(a)
    ensures Contains(a + "\n" + x, ResultStart) <==> Contains(x, ResultStart)
    ensures Contains(a + "\n" + x, ResultEnd) <==> Contains(x, ResultEnd)
    ensures Contains(x, ResultStart) && Contains(x, ResultEnd) ==> Between(a + "\n" + x) == Between(x)
  {
    SentinelsOneLine();
    MarkerAfterQuietLines(a, x, ResultStart);
    MarkerAfterQuietLines(a, x, ResultEnd);
    if Contains(x, ResultStart) && Contains(x, ResultEnd) {
      BetweenShifted(a, x);
    }
  }

  /** Past lines without a one-line marker, its first occurrence moves by
      the length of those lines. */
  lemma MarkerAfterQuietLines(a: string, x: string, m: string)
    requires '\n' !in m && !Contains(a, m)
    ensures Contains(a + "\n" + x, m) <==> Contains(x, m)
    ensures Contains(x, m) ==> IndexOf(a + "\n" + x, m) == Some(|a| + 1 + IndexOf(x, m).value)
  {
    if Contains(x, m) {
      IndexOfPastSeparator(a, '\n', x, m);
    } else {
      NotContainsJoined(a, '\n', x, m);
    }
  }

  lemma BetweenShifted(a: string, x: string)
    requires Contains(x, ResultStart) && Contains(x, ResultEnd)
    requires IndexOf(a + "\n" + x, ResultStart) == Some(|a| + 1 + IndexOf(x, ResultStart).value)
    requires IndexOf(a + "\n" + x, ResultEnd) == Some(|a| + 1 + IndexOf(x, ResultEnd).value)
    ensures Between(a + "\n" + x) == Between(x)
  {
    var s := a + "\n" + x;
    var d := |a| + 1;
    var i := IndexOf(x, ResultStart).value + |ResultStart|;
    var j := IndexOf(x, ResultEnd).value;
    assert i <= j ==> s[d + i..d + j] == x[i..j];
  }

  lemma SplitLastLine(prior: string)
    requires prior != [] && WholeLines(prior)
    ensures prior == prior[..|prior| - 1] + "\n"
    ensures !Contains(prior, ErrorSentinel) ==> !Contains(prior[..|prior| - 1], ErrorSentinel)
    ensures Quiet(prior) ==> Quiet(prior[..|prior| - 1])
  {
    var a := prior[..|prior| - 1];
    assert prior == a + "\n";
    if Contains(a, ErrorSentinel) { OccursInLeft(a, "\n", ErrorSentinel, IndexOf(a, ErrorSentinel).value); }
    if Contains(a, ResultStart) { OccursInLeft(a, "\n", ResultStart, IndexOf(a, ResultStart).value); }
    if Contains(a, ResultEnd) { OccursInLeft(a, "\n", ResultEnd, IndexOf(a, ResultEnd).value); }
  }

  /** Whole lines without sentinels before `x` are ignored. */
  lemma AfterQuietOutput(prior: string, x: string)
    requires Quiet(prior) && WholeLines(prior)
    ensures ReadChannel(prior + x) == ReadChannel(x)
  {
    if prior == [] {
      assert prior + x == x;
    } else {
      SplitLastLine(prior);
      var a := prior[..|prior| - 1];
      assert prior + x == a + "\n" + x;
      QuietLinesIgnored(a, x);
    }
  }

  /** Whole lines without the error sentinel before an error line are ignored. */
  lemma AfterErrorFreeOutput(prior: string, x: string)
    requires !Contains(prior, ErrorSentinel) && WholeLines(prior) && Contains(x, ErrorSentinel)
    ensures ReadChannel(prior + x) == ReadChannel(x)
  {
    if prior == [] {
      assert prior + x == x;
    } else {
      SplitLastLine(prior);
      var a := prior[..|prior| - 1];
      assert prior + x == a + "\n" + x;
      ErrorFreeLinesIgnored(a, x);
    }
  }

  // ---------------------------------------------------------------------------
  // The driver's own output
  // ---------------------------------------------------------------------------

  /** Round trip of the result frame: the candidate read back is the
      stripped JSON text the driver printed, provided that text holds
      neither the end marker nor the error sentinel. */
  lemma ResultRoundTrip(json: string)
    requires !Contains(json, ResultEnd) && !Contains(json, ErrorSentinel)
    ensures ReadChannel(DriverOutput(Returned(json))) == Marked(Strip(json))
  {
    var s := DriverOutput(Returned(json));
    ResultFrame(json);
    var n := |ResultStart|;
    assert Between(s) == s[n..n + 1 + |json| + 1];
    assert s[n..n + 1 + |json| + 1] == "\n" + json + "\n";
    assert AllSpace("\n");
    StripPadded("\n", json, "\n");
  }

  /** Where the markers of a result frame are. */
  lemma ResultFrame(json: string)
    requires !Contains(json, ResultEnd) && !Contains(json, ErrorSentinel)
    ensures !Contains(DriverOutput(Returned(json)), ErrorSentinel)
    ensures IndexOf(DriverOutput(Returned(json)), ResultStart) == Some(0)
    ensures IndexOf(DriverOutput(Returned(json)), ResultEnd) == Some(|ResultStart| + 1 + |json| + 1)
  {
    FrameOpens(json);
    SentinelsOneLine();
    StartFreeOfEnd();
    var tail := ResultEnd + "\n";
    var mid := json + "\n" + tail;
    FrameShape(json);
    assert tail[..|ResultEnd|] == ResultEnd;
    IndexOfAtStart(tail, ResultEnd);
    IndexOfPastSeparator(json, '\n', tail, ResultEnd);
    IndexOfPastSeparator(ResultStart, '\n', mid, ResultEnd);
  }

  /** `json.dumps` escapes every control character, so the JSON text holds
      no `\r` and a result frame reads back in text mode as written. */
  lemma FrameCaptured(json: string)
    requires '\r' !in json
    ensures TextCapture(DriverOutput(Returned(json))) == DriverOutput(Returned(json))
  {
    SentinelsNoReturn();
    FrameShape(json);
  }

  lemma SentinelsNoReturn()
    ensures '\r' !in ErrorSentinel && '\r' !in ResultStart && '\r' !in ResultEnd
  {
  }

  /** Earlier output that ends at a line boundary is captured on its own,
      and still ends at a line boundary. */
  lemma CaptureBeforeDriver(prior: string, x: string)
    requires WholeLines(prior)
    ensures TextCapture(prior + x) == TextCapture(prior) + TextCapture(x)
    ensures WholeLines(TextCapture(prior))
  {
    CaptureAppend(prior, x);
    if prior != [] {
      var a := prior[..|prior| - 1];
      assert prior == a + "\n";
      CaptureKeepsLineEnd(a);
    }
  }

  /** In text mode the exception report ends at the first line break of
      `<class>: <message>`, a `\r` as much as a `\n`. */
  lemma RaisedCaptured(kind: string, message: string) returns (rest: string)
    ensures TextCapture(DriverOutput(Raised(kind, message))) ==
              (ErrorSentinel + FirstLine(kind + ": " + message)) + "\n" + rest
  {
    SentinelsNoReturn();
    var body := kind + ": " + message;
    assert DriverOutput(Raised(kind, message)) == ErrorSentinel + (body + "\n");
    rest := CaptureAfterPlain(ErrorSentinel, body);
  }

  /** Text without `\r` followed by a line: capture ends the line at its
      first break. */
  lemma CaptureAfterPlain(x: string, body: string) returns (rest: string)
    requires '\r' !in x
    ensures TextCapture(x + (body + "\n")) == (x + FirstLine(body)) + "\n" + rest
  {
    if x != [] {
      assert x[|x| - 1] in x;
    }
    CaptureAppend(x, body + "\n");
    rest := CaptureBreaksLine(body);
    assert x + (FirstLine(body) + "\n" + rest) == (x + FirstLine(body)) + "\n" + rest;
  }

  /** The sentinel followed by text without line breaks is one line that
      holds the sentinel. */
  lemma ErrorLineStart(first: string)
    requires forall k :: 0 <= k < |first| ==> !IsBreak(first[k])
    ensures '\n' !in ErrorSentinel + first && Contains(ErrorSentinel + first, ErrorSentinel)
  {
    SentinelsOneLine();
    var line := ErrorSentinel + first;
    assert line[..|ErrorSentinel|] == ErrorSentinel;
    IndexOfAtStart(line, ErrorSentinel);
  }

  /** The error report read back, in text mode, from the epilogue's report
      of an exception: the first line of `<class>: <message>` after the
      sentinel, with the sentinel deleted and stripped. Later lines of a
      multi-line message are lost. */
  lemma RaisedRoundTrip(kind: string, message: string)
    ensures Contains(TextCapture(DriverOutput(Raised(kind, message))), ErrorSentinel)
    ensures ReadChannel(TextCapture(DriverOutput(Raised(kind, message)))) ==
              ErrorReport(Strip(RemoveAll(ErrorSentinel + FirstLine(kind + ": " + message), ErrorSentinel)))
    ensures !Contains(FirstLine(kind + ": " + message), ErrorSentinel) ==>
              ReadChannel(TextCapture(DriverOutput(Raised(kind, message)))) ==
              ErrorReport(Strip(FirstLine(kind + ": " + message)))
  {
    var first := FirstLine(kind + ": " + message);
    var rest := RaisedCaptured(kind, message);
    ErrorLineStart(first);
    ErrorLineFirst(ErrorSentinel + first, rest);
    if !Contains(first, ErrorSentinel) {
      RemoveAllLeading(ErrorSentinel, first);
    }
  }

  /** A first line holding the sentinel is the report, whatever follows. */
  lemma ErrorLineFirst(line: string, rest: string)
    requires '\n' !in line && Contains(line, ErrorSentinel)
    ensures Contains(line + "\n" + rest, ErrorSentinel)
    ensures ReadChannel(line + "\n" + rest) == ErrorReport(Strip(RemoveAll(line, ErrorSentinel)))
  {
    assert line + "\n" + rest == line + ("\n" + rest);
    OccursInLeft(line, "\n" + rest, ErrorSentinel, IndexOf(line, ErrorSentinel).value);
    LaterLinesIgnored(line, rest);
    OneLineReport(line);
  }

  /** When `json.dumps` fails, the start marker is already out but the error
      line still wins: the report is the one for the exception. */
  lemma UnserializableRoundTrip(kind: string, message: string)
    ensures Contains(TextCapture(DriverOutput(Unserializable(kind, message))), ErrorSentinel)
    ensures ReadChannel(TextCapture(DriverOutput(Unserializable(kind, message)))) ==
              ReadChannel(TextCapture(DriverOutput(Raised(kind, message))))
  {
    SentinelsNoReturn();
    MarkersFreeOfError();
    var x := TextCapture(DriverOutput(Raised(kind, message)));
    var head := ResultStart + "\n";
    assert DriverOutput(Unserializable(kind, message)) == head + DriverOutput(Raised(kind, message));
    CaptureAppend(head, DriverOutput(Raised(kind, message)));
    assert TextCapture(head) == head;
    RaisedRoundTrip(kind, message);
    ErrorFreeLinesIgnored(ResultStart, x);
    assert head + x == ResultStart + "\n" + x;
    OccursInRight(head, x, ErrorSentinel, IndexOf(x, ErrorSentinel).value);
  }

  // ---------------------------------------------------------------------------
  // The response for each way main() can end
  // ---------------------------------------------------------------------------

  /** A value `main()` returned reaches the caller as `json.loads` decodes
      it, with the script's stdout alongside. The JSON text is what
      `json.dumps` prints, so it holds no `\r`. */
  lemma ReturnedValueDelivered<J>(decode: string -> Decoded<J>, stdout: string, prior: string, json: string)
    requires Quiet(TextCapture(prior)) && WholeLines(prior)
    requires '\r' !in json && !Contains(json, ResultEnd) && !Contains(json, ErrorSentinel)
    ensures Respond(decode, Completed(stdout, prior + DriverOutput(Returned(json)))) ==
              match decode(Strip(json))
              case Parsed(v) => Succeeded(v, Strip(TextCapture(stdout)))
              case Malformed(e) => Failed(NotSerializablePrefix + e, Strip(TextCapture(stdout)))
              case Aborted(e) => Failed(InternalPrefix + e, [])
  {
    var x := DriverOutput(Returned(json));
    CaptureBeforeDriver(prior, x);
    FrameCaptured(json);
    AfterQuietOutput(TextCapture(prior), x);
    ResultRoundTrip(json);
  }

  /** An exception from `main()` is reported as a script execution error
      made from the first line of `<class>: <message>`. */
  lemma RaisedExceptionReported<J>(decode: string -> Decoded<J>, stdout: string, prior: string, kind: string, message: string)
    requires !Contains(TextCapture(prior), ErrorSentinel) && WholeLines(prior)
    ensures Respond(decode, Completed(stdout, prior + DriverOutput(Raised(kind, message)))) ==
              Failed(ExecutionErrorPrefix + Strip(RemoveAll(ErrorSentinel + FirstLine(kind + ": " + message), ErrorSentinel)),
                     Strip(TextCapture(stdout)))
    ensures !Contains(FirstLine(kind + ": " + message), ErrorSentinel) ==>
              Respond(decode, Completed(stdout, prior + DriverOutput(Raised(kind, message)))) ==
              Failed(ExecutionErrorPrefix + Strip(FirstLine(kind + ": " + message)), Strip(TextCapture(stdout)))
  {
    var x := DriverOutput(Raised(kind, message));
    CaptureBeforeDriver(prior, x);
    RaisedRoundTrip(kind, message);
    ReportAfterPrior(TextCapture(prior), TextCapture(x));
  }

  /** A returned value that `json.dumps` rejects is reported exactly as an
      exception from `main()` would be, not as a missing or undecodable
      result. */
  lemma UnserializableReported<J>(decode: string -> Decoded<J>, stdout: string, prior: string, kind: string, message: string)
    requires !Contains(TextCapture(prior), ErrorSentinel) && WholeLines(prior)
    ensures Respond(decode, Completed(stdout, prior + DriverOutput(Unserializable(kind, message)))) ==
              Respond(decode, Completed(stdout, prior + DriverOutput(Raised(kind, message))))
  {
    var x := DriverOutput(Unserializable(kind, message));
    var y := DriverOutput(Raised(kind, message));
    CaptureBeforeDriver(prior, x);
    CaptureBeforeDriver(prior, y);
    UnserializableRoundTrip(kind, message);
    RaisedRoundTrip(kind, message);
    ReportAfterPrior(TextCapture(prior), TextCapture(x));
    ReportAfterPrior(TextCapture(prior), TextCapture(y));
  }

  /** Error-free whole lines before a report holding the sentinel leave the
      classification to that report. */
  lemma ReportAfterPrior(cp: string, x: string)
    requires !Contains(cp, ErrorSentinel) && WholeLines(cp) && Contains(x, ErrorSentinel)
    ensures Contains(cp + x, ErrorSentinel) && ReadChannel(cp + x) == ReadChannel(x)
  {
    AfterErrorFreeOutput(cp, x);
    OccursInRight(cp, x, ErrorSentinel, IndexOf(x, ErrorSentinel).value);
  }

  /** A run that never reached the epilogue has no result; the message
      carries the stripped stderr when there is any. */
  lemma AbandonedRunReported<J>(decode: string -> Decoded<J>, stdout: string, prior: string)
    requires Quiet(TextCapture(prior))
    ensures Respond(decode, Completed(stdout, prior + DriverOutput(Abandoned))) ==
              Failed(NoResult(TextCapture(prior)), Strip(TextCapture(stdout)))
    ensures prior == [] ==> Respond(decode, Completed(stdout, prior + DriverOutput(Abandoned))).error == NoResultMessage
  {
    assert prior + DriverOutput(Abandoned) == prior;
  }

  /** Once stderr has an error line, nothing written after it (on later
      lines) changes what the channel says. */
  lemma LaterLinesIgnored(s: string, t: string)
    requires Contains(s, ErrorSentinel)
    ensures ReadChannel(s + "\n" + t) == ReadChannel(s)
  {
    SentinelsOneLine();
    OccursInLeft(s, "\n" + t, ErrorSentinel, IndexOf(s, ErrorSentinel).value);
    assert s + "\n" + t == s + ("\n" + t);
    SplitAppend(s, t, '\n');
    ErrorLineExists(s);
    FirstWithAppend(Split(s, '\n'), Split(t, '\n'), ErrorSentinel);
    var k := FirstWith(Split(s, '\n'), ErrorSentinel).value;
    assert (Split(s, '\n') + Split(t, '\n'))[k] == Split(s, '\n')[k];
  }

  /** Hence the response too ignores everything after the error line. */
  lemma LaterOutputIgnored<J>(decode: string -> Decoded<J>, stdout: string, s: string, t: string)
    requires Contains(s, ErrorSentinel)
    ensures Classify(decode, stdout, s + "\n" + t) == Classify(decode, stdout, s)
  {
    var x := s + "\n" + t;
    LaterLinesIgnored(s, t);
    assert ReadChannel(x).ErrorReport?;
    assert Classify(decode, stdout, x) == Failed(ExecutionErrorPrefix + ReadChannel(x).message, Strip(stdout));
  }

  /** A single line holding the sentinel is its own error line. */
  lemma OneLineReport(line: string)
    requires '\n' !in line && Contains(line, ErrorSentinel)
    ensures ReadChannel(line) == ErrorReport(Strip(RemoveAll(line, ErrorSentinel)))
  {
    SplitUnique(line, '\n', [line]);
    FirstWithUnique([line], ErrorSentinel, 0);
  }

  // ---------------------------------------------------------------------------
  // Concrete cases
  // ---------------------------------------------------------------------------

  /** The markers are located independently: whenever the first end marker
      begins before the first start marker ends, the slice between them is
      inverted and the candidate is empty (which `json.loads` rejects)
      instead of "no result". */
  lemma MarkersInverted(stderr: string)
    requires !Contains(stderr, ErrorSentinel)
    requires Contains(stderr, ResultStart) && Contains(stderr, ResultEnd)
    requires IndexOf(stderr, ResultEnd).value <= IndexOf(stderr, ResultStart).value + |ResultStart|
    ensures ReadChannel(stderr) == Marked([])
  {
    StripNoop([]);
  }

  /** For example, an end marker on the line before the start marker. */
  lemma MarkersOutOfOrder()
    ensures ReadChannel(ResultEnd + "\n" + ResultStart) == Marked([])
  {
    SentinelsOneLine();
    MarkersFreeOfError();
    var s := ResultEnd + "\n" + ResultStart;
    assert ResultStart[11] == 'A';
    MissingChar(ResultEnd, ResultStart, 'A');
    NotContainsJoined(ResultEnd, '\n', ResultStart, ErrorSentinel);
    assert ResultStart[..|ResultStart|] == ResultStart;
    IndexOfAtStart(ResultStart, ResultStart);
    IndexOfPastSeparator(ResultEnd, '\n', ResultStart, ResultStart);
    assert s[..|ResultEnd|] == ResultEnd;
    IndexOfAtStart(s, ResultEnd);
    StripNoop([]);
  }

  /** A script whose `main()` raises `ValueError('bad')`. */
  lemma ValueErrorScenario<J>(decode: string -> Decoded<J>, stdout: string)
    ensures Respond(decode, Completed(stdout, DriverOutput(Raised("ValueError", "bad")))) ==
              Failed(ExecutionErrorPrefix + "ValueError: bad", Strip(TextCapture(stdout)))
  {
    ValueErrorText();
    RaisedExceptionReported(decode, stdout, [], "ValueError", "bad");
    assert [] + DriverOutput(Raised("ValueError", "bad")) == DriverOutput(Raised("ValueError", "bad"));
  }

  lemma ValueErrorText()
    ensures var body := "ValueError" + ": " + "bad";
      FirstLine(body) == body && !Contains(body, ErrorSentinel) && Strip(body) == "ValueError: bad"
  {
    var body := "ValueError" + ": " + "bad";
    assert body == "ValueError: bad";
    assert forall k :: 0 <= k < |body| ==> !IsBreak(body[k]);
    assert ErrorSentinel[0] == '_';
    MissingChar(body, ErrorSentinel, '_');
    assert !IsSpace(body[0]) && !IsSpace(body[|body| - 1]);
    StripNoop(body);
  }

  /** A script whose `main()` raises `ValueError('a\rb')`: text-mode capture
      turns the `\r` into a line break, and only `a` is reported. */
  lemma CarriageReturnScenario<J>(decode: string -> Decoded<J>, stdout: string)
    ensures Respond(decode, Completed(stdout, DriverOutput(Raised("ValueError", "a\rb")))) ==
              Failed(ExecutionErrorPrefix + "ValueError: a", Strip(TextCapture(stdout)))
  {
    CarriageReturnText();
    RaisedExceptionReported(decode, stdout, [], "ValueError", "a\rb");
    assert [] + DriverOutput(Raised("ValueError", "a\rb")) == DriverOutput(Raised("ValueError", "a\rb"));
  }

  lemma CarriageReturnText()
    ensures var first := FirstLine("ValueError" + ": " + "a\rb");
      first == "ValueError: a" && !Contains(first, ErrorSentinel) && Strip(first) == first
  {
    var body := "ValueError" + ": " + "a\rb";
    assert body == "ValueError: a\rb";
    var first := "ValueError: a";
    assert body[..13] == first;
    FirstLineAt(body, 13);
    assert forall k :: 0 <= k < |first| ==> first[k] != '_';
    assert ErrorSentinel[0] == '_';
    MissingChar(first, ErrorSentinel, '_');
    assert !IsSpace(first[0]) && !IsSpace(first[|first| - 1]);
    StripNoop(first);
  }

  /** A script whose `main()` returns `{'x': 2}`, printed by `json.dumps` as
      `{"x": 2}`, succeeds with whatever `json.loads` makes of that text. */
  lemma ReturnedDictScenario<J>(decode: string -> Decoded<J>, stdout: string, v: J)
    requires decode("{\"x\": 2}") == Parsed(v)
    ensures Respond(decode, Completed(stdout, DriverOutput(Returned("{\"x\": 2}")))) ==
              Succeeded(v, Strip(TextCapture(stdout)))
  {
    DictText();
    ReturnedValueDelivered(decode, stdout, [], "{\"x\": 2}");
    assert [] + DriverOutput(Returned("{\"x\": 2}")) == DriverOutput(Returned("{\"x\": 2}"));
  }

  lemma DictText()
    ensures var json := "{\"x\": 2}";
      '\r' !in json && !Contains(json, ResultEnd) && !Contains(json, ErrorSentinel) && Strip(json) == json
  {
    var json := "{\"x\": 2}";
    assert ResultEnd[0] == '_' && ErrorSentinel[0] == '_';
    MissingChar(json, ResultEnd, '_');
    MissingChar(json, ErrorSentinel, '_');
    assert !IsSpace(json[0]) && !IsSpace(json[|json| - 1]);
    StripNoop(json);
  }

  // ---------------------------------------------------------------------------
  // Returned values that look like sentinels
  // ---------------------------------------------------------------------------

  /** `main()` returning the string `__ERROR__:x` is reported as an
      exception: the sentinel is searched for anywhere in a line, and the
      line `json.dumps` printed holds one. */
  lemma ReturnedErrorSentinelMisread<J>(decode: string -> Decoded<J>, stdout: string)
    ensures Respond(decode, Completed(stdout, DriverOutput(Returned("\"" + ErrorSentinel + "x\"")))) ==
              Failed(ExecutionErrorPrefix + "\"x\"", Strip(TextCapture(stdout)))
  {
    var json := "\"" + ErrorSentinel + "x\"";
    var err := DriverOutput(Returned(json));
    SentinelsNoReturn();
    FrameCaptured(json);
    ErrorSentinelValueRead();
    assert Classify(decode, TextCapture(stdout), err) ==
             Failed(ExecutionErrorPrefix + ReadChannel(err).message, Strip(TextCapture(stdout)));
  }

  lemma ErrorSentinelValueRead()
    ensures ReadChannel(DriverOutput(Returned("\"" + ErrorSentinel + "x\""))) == ErrorReport("\"x\"")
  {
    var json := "\"" + ErrorSentinel + "x\"";
    ErrorSentinelValueLine();
    ValueWithSentinelRead(json);
    var shown := "\"x\"";
    assert !IsSpace(shown[0]) && !IsSpace(shown[|shown| - 1]);
    StripNoop(shown);
  }

  lemma FrameShape(json: string)
    ensures DriverOutput(Returned(json)) == ResultStart + "\n" + (json + "\n" + (ResultEnd + "\n"))
  {
  }

  /** A one-line JSON text holding the error sentinel turns a result frame
      into an error report made from that text. */
  lemma ValueWithSentinelRead(json: string)
    requires '\n' !in json && Contains(json, ErrorSentinel)
    ensures ReadChannel(DriverOutput(Returned(json))) == ErrorReport(Strip(RemoveAll(json, ErrorSentinel)))
  {
    var tail := ResultEnd + "\n";
    FrameAfterStart(json);
    LaterLinesIgnored(json, tail);
    OneLineReport(json);
  }

  /** A frame whose JSON text holds the error sentinel reads as if the start
      marker line were not there. */
  lemma FrameAfterStart(json: string)
    requires Contains(json, ErrorSentinel)
    ensures ReadChannel(DriverOutput(Returned(json))) == ReadChannel(json + "\n" + (ResultEnd + "\n"))
  {
    var tail := ResultEnd + "\n";
    var x := json + "\n" + tail;
    assert Contains(x, ErrorSentinel) by {
      OccursInLeft(json, "\n" + tail, ErrorSentinel, IndexOf(json, ErrorSentinel).value);
      assert x == json + ("\n" + tail);
    }
    FrameShape(json);
    MarkersFreeOfError();
    ErrorFreeLinesIgnored(ResultStart, x);
  }

  lemma ErrorSentinelValueLine()
    ensures var json := "\"" + ErrorSentinel + "x\"";
      '\n' !in json && Contains(json, ErrorSentinel) && RemoveAll(json, ErrorSentinel) == "\"x\""
  {
    var rest := "x\"";
    var json := "\"" + ErrorSentinel + rest;
    assert json[1..1 + |ErrorSentinel|] == ErrorSentinel;
    assert OccursAt(json, ErrorSentinel, 1);
    assert ErrorSentinel[0] == '_' && ErrorSentinel[9] == ':' && '\n' !in ErrorSentinel;
    assert json == ['"'] + (ErrorSentinel + rest);
    MissingChar(rest, ErrorSentinel, '_');
    RemoveAllLeading(ErrorSentinel, rest);
    assert json[1..] == ErrorSentinel + rest;
    assert !StartsWith(json, ErrorSentinel) by { assert json[0] != ErrorSentinel[0]; }
  }

  /** A JSON text holding the end marker is cut at it: the candidate is
      what precedes the marker. */
  lemma ValueWithEndMarkerRead(json: string)
    requires !Contains(json, ErrorSentinel) && Contains(json, ResultEnd)
    ensures ReadChannel(DriverOutput(Returned(json))) ==
              Marked(Strip("\n" + json[..IndexOf(json, ResultEnd).value]))
  {
    var s := DriverOutput(Returned(json));
    CutFrame(json);
    var i := IndexOf(json, ResultEnd).value;
    var n := |ResultStart|;
    assert Between(s) == s[n..n + 1 + i];
  }

  /** Where the end marker of a frame stands when its JSON text holds one. */
  lemma CutFrame(json: string)
    requires !Contains(json, ErrorSentinel) && Contains(json, ResultEnd)
    ensures var s := DriverOutput(Returned(json));
      && !Contains(s, ErrorSentinel)
      && IndexOf(s, ResultStart) == Some(0)
      && IndexOf(s, ResultEnd) == Some(|ResultStart| + 1 + IndexOf(json, ResultEnd).value)
      && s[|ResultStart|..|ResultStart| + 1 + IndexOf(json, ResultEnd).value] == "\n" + json[..IndexOf(json, ResultEnd).value]
  {
    FrameOpens(json);
    CutFrameEnd(json);
    FrameSlice(json, IndexOf(json, ResultEnd).value);
  }

  lemma CutFrameEnd(json: string)
    requires Contains(json, ResultEnd)
    ensures IndexOf(DriverOutput(Returned(json)), ResultEnd) == Some(|ResultStart| + 1 + IndexOf(json, ResultEnd).value)
  {
    SentinelsOneLine();
    StartFreeOfEnd();
    var tail := ResultEnd + "\n";
    var mid := json + "\n" + tail;
    FrameShape(json);
    assert mid == json + ("\n" + tail);
    IndexOfInPrefix(json, "\n" + tail, ResultEnd);
    IndexOfPastSeparator(ResultStart, '\n', mid, ResultEnd);
  }

  /** The text of a frame after the start marker, up to position `i` of the
      JSON text. */
  lemma FrameSlice(json: string, i: nat)
    requires i <= |json|
    ensures var s := DriverOutput(Returned(json));
      |ResultStart| + 1 + i <= |s| && s[|ResultStart|..|ResultStart| + 1 + i] == "\n" + json[..i]
  {
    FrameShape(json);
  }

  /** A frame opens with the start marker and holds no error sentinel
      unless its JSON text does. */
  lemma FrameOpens(json: string)
    ensures IndexOf(DriverOutput(Returned(json)), ResultStart) == Some(0)
    ensures !Contains(json, ErrorSentinel) ==> !Contains(DriverOutput(Returned(json)), ErrorSentinel)
  {
    SentinelsOneLine();
    MarkersFreeOfError();
    var tail := ResultEnd + "\n";
    var mid := json + "\n" + tail;
    var s := ResultStart + "\n" + mid;
    FrameShape(json);
    assert s[..|ResultStart|] == ResultStart;
    IndexOfAtStart(s, ResultStart);
    if !Contains(json, ErrorSentinel) {
      assert tail == ResultEnd + ['\n'] + [];
      NotContainsJoined(ResultEnd, '\n', [], ErrorSentinel);
      NotContainsJoined(json, '\n', tail, ErrorSentinel);
      NotContainsJoined(ResultStart, '\n', mid, ErrorSentinel);
    }
  }

  /** `main()` returning the string `__RESULT_END__` is cut short: the first
      end marker is the one inside the value, so the candidate is the lone
      opening quote, which is not a JSON text. */
  lemma ReturnedEndMarkerMisread()
    ensures ReadChannel(DriverOutput(Returned("\"" + ResultEnd + "\""))) == Marked("\"")
  {
    var json := "\"" + ResultEnd + "\"";
    QuotedEndMarker();
    ValueWithEndMarkerRead(json);
    LoneQuote(json);
  }

  lemma LoneQuote(json: string)
    requires |json| > 0 && json[0] == '"'
    ensures Strip("\n" + json[..1]) == "\""
  {
    assert "\n" + json[..1] == ['\n', '"'];
    StripAfterNewline('"');
  }

  lemma StripAfterNewline(c: char)
    requires !IsSpace(c)
    ensures Strip(['\n', c]) == [c]
  {
    assert ['\n', c] == ['\n'] + [c] + [];
    NewlineIsSpace();
    StripPadded(['\n'], [c], []);
    StripNoop([c]);
  }

  lemma NewlineIsSpace()
    ensures AllSpace(['\n']) && AllSpace([])
  {
    assert IsSpace(['\n'][0]);
  }

  lemma QuotedEndMarker()
    ensures !Contains("\"" + ResultEnd + "\"", ErrorSentinel)
    ensures IndexOf("\"" + ResultEnd + "\"", ResultEnd) == Some(1)
  {
    var json := "\"" + ResultEnd + "\"";
    assert ErrorSentinel[9] == ':';
    assert ':' !in json;
    MissingChar(json, ErrorSentinel, ':');
    assert OccursAt(json, ResultEnd, 1) by { assert json[1..1 + |ResultEnd|] == ResultEnd; }
    assert !OccursAt(json, ResultEnd, 0) by { assert json[0] != ResultEnd[0]; }
    IndexOfUnique(json, ResultEnd, 1);
  }
}

=== FILE: regex.dfy ===
/** The fragment of Python's `re` that the script checks use: literals,
    `\s+`, `\s*` and one-character classes such as `['"]`, with `re.search`
    semantics (a match anywhere in the string, no anchors, no word
    boundaries). */
module Regex {
  import opened Options
  import opened PyText

  /** One element of a pattern: a literal, `\s+` (`Spaces(true)`) or `\s*`
      (`Spaces(false)`), or a character class. */
  datatype Token = Lit(text: string) | Spaces(atLeastOne: bool) | OneOf(chars: string)

  /** The pattern `p` matches exactly `s[i..j]`, with every choice the
      regular-expression engine could make for the whitespace repetitions. */
  ghost predicate MatchesSpan(p: seq<Token>, s: string, i: int, j: int)
    decreases |p|
  {
    && 0 <= i <= j <= |s|
    && if |p| == 0 then i == j
       else match p[0]
         case Lit(t) =>
           i + |t| <= j && s[i..i + |t|] == t && MatchesSpan(p[1..], s, i + |t|, j)
         case Spaces(one) =>
           exists k :: (if one then i + 1 else i) <= k <= j && AllSpace(s[i..k]) && MatchesSpan(p[1..], s, k, j)
         case OneOf(cs) =>
           i < j && s[i] in cs && MatchesSpan(p[1..], s, i + 1, j)
  }

  /** `re.search(p, s)` returns a match object. */
  ghost predicate Found(p: seq<Token>, s: string) {
    exists i, j :: MatchesSpan(p, s, i, j)
  }

  /** A match that starts with a literal: the literal, then a match of the rest. */
  lemma LitStep(p: seq<Token>, t: string, s: string, i: int, j: int)
    requires |p| > 0 && p[0] == Lit(t) && MatchesSpan(p, s, i, j)
    ensures 0 <= i && i + |t| <= j <= |s| && s[i..i + |t|] == t
    ensures MatchesSpan(p[1..], s, i + |t|, j)
  {
  }

  /** A match that starts with a whitespace repetition: some whitespace,
      then a match of the rest. */
  lemma SpacesStep(p: seq<Token>, s: string, i: int, j: int) returns (k: int)
    requires |p| > 0 && p[0].Spaces? && MatchesSpan(p, s, i, j)
    ensures (if p[0].atLeastOne then i + 1 else i) <= k <= j <= |s|
    ensures AllSpace(s[i..k]) && MatchesSpan(p[1..], s, k, j)
  {
    k :| (if p[0].atLeastOne then i + 1 else i) <= k <= j && AllSpace(s[i..k]) && MatchesSpan(p[1..], s, k, j);
  }

  /** The converse steps: a literal, or some whitespace, followed by a
      match of the rest. */
  lemma LitMatch(p: seq<Token>, t: string, s: string, i: int, j: int)
    requires |p| > 0 && p[0] == Lit(t) && 0 <= i && i + |t| <= j <= |s| && s[i..i + |t|] == t
    requires MatchesSpan(p[1..], s, i + |t|, j)
    ensures MatchesSpan(p, s, i, j)
  {
  }

  lemma SpacesMatch(p: seq<Token>, s: string, i: int, k: int, j: int)
    requires |p| > 0 && p[0].Spaces? && 0 <= i && (if p[0].atLeastOne then i + 1 else i) <= k <= j <= |s|
    requires AllSpace(s[i..k]) && MatchesSpan(p[1..], s, k, j)
    ensures MatchesSpan(p, s, i, j)
  {
  }

  /** Where a match of `p` starting at `i` ends when every whitespace
      repetition takes as much as it can. */
  function MatchEnd(p: seq<Token>, s: string, i: nat): (r: Option<nat>)
    requires i <= |s|
    ensures r.Some? ==> MatchesSpan(p, s, i, r.value)
    decreases |p|
  {
    if |p| == 0 then Some(i)
    else match p[0]
      case Lit(t) =>
        if i + |t| <= |s| && s[i..i + |t|] == t then MatchEnd(p[1..], s, i + |t|) else None
      case Spaces(one) =>
        var n := LeadingSpaces(s[i..]);
        assert s[i..i + n] == s[i..][..n];
        if one && n == 0 then None else MatchEnd(p[1..], s, i + n)
      case OneOf(cs) =>
        if i < |s| && s[i] in cs then MatchEnd(p[1..], s, i + 1) else None
  }

  /** Every match of `t` begins with a character that is not whitespace. */
  predicate OpensSolid(t: Token) {
    match t
    case Lit(x) => |x| > 0 && !IsSpace(x[0])
    case OneOf(cs) => forall k :: 0 <= k < |cs| ==> !IsSpace(cs[k])
    case Spaces(_) => false
  }

  /** Each whitespace repetition is followed by the end of the pattern or by
      a token that cannot begin with whitespace, so taking as much whitespace
      as possible never loses a match. */
  predicate Unambiguous(p: seq<Token>) {
    forall m :: 0 <= m < |p| - 1 && p[m].Spaces? ==> OpensSolid(p[m + 1])
  }

  lemma StartsSolid(p: seq<Token>, s: string, i: int, j: int)
    requires |p| > 0 && OpensSolid(p[0]) && MatchesSpan(p, s, i, j)
    ensures i < |s| && !IsSpace(s[i])
  {
    match p[0]
    case Lit(t) =>
      assert s[i..i + |t|][0] == s[i];
    case OneOf(cs) =>
      var k :| 0 <= k < |cs| && cs[k] == s[i];
  }

  lemma UnambiguousTail(p: seq<Token>)
    requires |p| > 0 && Unambiguous(p)
    ensures Unambiguous(p[1..])
  {
    var q := p[1..];
    forall m | 0 <= m < |q| - 1 && q[m].Spaces? ensures OpensSolid(q[m + 1]) {
      assert q[m] == p[m + 1] && q[m + 1] == p[m + 2];
    }
  }

  /** In an unambiguous pattern a whitespace repetition can only ever stop
      where the greedy one stops (or the pattern ends there). */
  lemma GreedySpacesStop(p: seq<Token>, s: string, i: int, k: int, j: int)
    requires |p| > 1 && p[0].Spaces? && Unambiguous(p)
    requires 0 <= i <= k <= |s| && AllSpace(s[i..k]) && MatchesSpan(p[1..], s, k, j)
    ensures k == i + LeadingSpaces(s[i..])
  {
    assert p[1..][0] == p[1];
    StartsSolid(p[1..], s, k, j);
    assert s[i..][..k - i] == s[i..k];
    assert s[i..][k - i] == s[k];
    LeadingSpacesUnique(s[i..], k - i);
  }

  /** Taking whitespace greedily finds a match wherever the engine would. */
  lemma {:induction false} MatchEndComplete(p: seq<Token>, s: string, i: int, j: int)
    requires Unambiguous(p) && MatchesSpan(p, s, i, j)
    ensures MatchEnd(p, s, i).Some?
    decreases |p|
  {
    if |p| > 0 {
      UnambiguousTail(p);
      if p[0].Lit? {
        var t := p[0].text;
        LitStep(p, t, s, i, j);
        MatchEndComplete(p[1..], s, i + |t|, j);
        MatchEndLitStep(p, t, s, i);
      } else if p[0].OneOf? {
        OneOfStep(p, s, i, j);
        MatchEndComplete(p[1..], s, i + 1, j);
        MatchEndOneOfStep(p, s, i);
      } else {
        var k := SpacesStep(p, s, i, j);
        MatchEndCompleteSpaces(p, s, i, k, j);
      }
    }
  }

  lemma OneOfStep(p: seq<Token>, s: string, i: int, j: int)
    requires |p| > 0 && p[0].OneOf? && MatchesSpan(p, s, i, j)
    ensures 0 <= i < j <= |s| && s[i] in p[0].chars
    ensures MatchesSpan(p[1..], s, i + 1, j)
  {
  }

  lemma MatchEndLitStep(p: seq<Token>, t: string, s: string, i: nat)
    requires |p| > 0 && p[0] == Lit(t) && i + |t| <= |s| && s[i..i + |t|] == t
    ensures MatchEnd(p, s, i) == MatchEnd(p[1..], s, i + |t|)
  {
  }

  lemma MatchEndOneOfStep(p: seq<Token>, s: string, i: nat)
    requires |p| > 0 && p[0].OneOf? && i < |s| && s[i] in p[0].chars
    ensures MatchEnd(p, s, i) == MatchEnd(p[1..], s, i + 1)
  {
  }

  lemma MatchEndSpacesStep(p: seq<Token>, s: string, i: nat)
    requires |p| > 0 && p[0].Spaces? && i <= |s|
    ensures var n := LeadingSpaces(s[i..]);
      MatchEnd(p, s, i) == if p[0].atLeastOne && n == 0 then None else MatchEnd(p[1..], s, i + n)
  {
  }

  lemma {:induction false} MatchEndCompleteSpaces(p: seq<Token>, s: string, i: int, k: int, j: int)
    requires |p| > 0 && p[0].Spaces? && Unambiguous(p)
    requires 0 <= i && (if p[0].atLeastOne then i + 1 else i) <= k
    requires MatchesSpan(p[1..], s, k, j) && AllSpace(s[i..k])
    ensures MatchEnd(p, s, i).Some?
    decreases |p|, 0
  {
    var n := LeadingSpaces(s[i..]);
    MatchEndSpacesStep(p, s, i);
    assert p[0].atLeastOne ==> n > 0 by {
      assert p[0].atLeastOne ==> s[i..k][0] == s[i..][0];
    }
    if |p| > 1 {
      GreedySpacesStop(p, s, i, k, j);
      UnambiguousTail(p);
      MatchEndComplete(p[1..], s, k, j);
    }
  }

  /** Some match of `p` starts at or after `i`. */
  function SearchFrom(p: seq<Token>, s: string, i: nat): (found: bool)
    requires i <= |s|
    ensures found ==> exists k: nat :: i <= k <= |s| && MatchEnd(p, s, k).Some?
    ensures (exists k: nat :: i <= k <= |s| && MatchEnd(p, s, k).Some?) ==> found
    decreases |s| - i
  {
    if MatchEnd(p, s, i).Some? then true
    else if i == |s| then false
    else SearchFrom(p, s, i + 1)
  }

  /** `re.search(p, s) is not None`, computed by trying each start position
      with greedy whitespace. */
  function Search(p: seq<Token>, s: string): bool {
    SearchFrom(p, s, 0)
  }

  /** For an unambiguous pattern the computed search agrees with the
      regular-expression meaning in both directions. */
  lemma SearchCorrect(p: seq<Token>, s: string)
    requires Unambiguous(p)
    ensures Search(p, s) <==> Found(p, s)
  {
    if Search(p, s) {
      var k: nat :| k <= |s| && MatchEnd(p, s, k).Some?;
      assert MatchesSpan(p, s, k, MatchEnd(p, s, k).value);
    }
    if Found(p, s) {
      var i, j :| MatchesSpan(p, s, i, j);
      MatchEndComplete(p, s, i, j);
    }
  }
}

=== FILE: sandbox.dfy ===
/** The sandbox invoker's command: the NsJail argument vector wrapping the
    interpreter and the artifact, and the outer deadline the invoker itself
    enforces. */
module Sandbox {
  import opened Options

  const NsjailBinary := "/usr/local/bin/nsjail"
  const Interpreter := "/usr/local/bin/python3"

  /** The wall-clock limit NsJail is given with `-t`, in seconds. */
  const SandboxTimeLimit: nat := 30
  /** The `timeout=` passed to `subprocess.run`, in seconds. */
  const OuterTimeout: nat := 35

  /** NsJail's options, in order, up to and including the `--` that ends them. */
  const NsjailOptions: seq<string> := [
    "-Me",
    "-t", "30",
    "--disable_proc",
    "--disable_clone_newuser",
    "--disable_clone_newnet",
    "--disable_clone_newns",
    "--disable_clone_newpid",
    "--disable_clone_newipc",
    "--disable_clone_newuts",
    "--disable_clone_newcgroup",
    "--disable_rlimits",
    "-q",
    "--"
  ]

  /** One child launch: the argument vector and the outer deadline. Output is
      always captured, as text. */
  datatype Invocation = Invocation(argv: seq<string>, timeoutSeconds: nat)

  /** `nsjail_cmd` for the artifact at `scriptPath`. */
  function Command(scriptPath: string): (argv: seq<string>)
    ensures |argv| == 17
    ensures argv[0] == NsjailBinary
    ensures argv[|argv| - 3..] == ["--", Interpreter, scriptPath]
    ensures forall k :: 1 <= k < |argv| - 3 ==> argv[k] != "--"
  {
    [NsjailBinary] + NsjailOptions + [Interpreter, scriptPath]
  }

  /** The launch `execute_script_with_nsjail` performs. */
  function Launch(scriptPath: string): (inv: Invocation)
    ensures inv.argv == Command(scriptPath)
    ensures inv.timeoutSeconds == OuterTimeout && inv.timeoutSeconds > SandboxTimeLimit
  {
    Invocation(Command(scriptPath), OuterTimeout)
  }

  /** The index of the first `x` in `xs`. */
  function Find(xs: seq<string>, x: string): (r: Option<nat>)
    ensures r.Some? ==> r.value < |xs| && xs[r.value] == x
    ensures r.Some? ==> forall k :: 0 <= k < r.value ==> xs[k] != x
    ensures r.None? ==> x !in xs
  {
    if |xs| == 0 then None
    else if xs[0] == x then Some(0)
    else
      match Find(xs[1..], x)
      case None => None
      case Some(k) => Some(k + 1)
  }

  /** How a getopt-style launcher reads `argv`: after the program name come
      options up to the first `--`; everything after it is the command to run. */
  function OptionsOf(argv: seq<string>): seq<string> {
    if |argv| == 0 then []
    else match Find(argv[1..], "--")
      case None => argv[1..]
      case Some(k) => argv[1..k + 1]
  }

  function ProgramOf(argv: seq<string>): seq<string> {
    if |argv| == 0 then []
    else match Find(argv[1..], "--")
      case None => []
      case Some(k) => argv[k + 2..]
  }

  /** The argument after the first occurrence of `flag` among the options. */
  function FlagValue(argv: seq<string>, flag: string): Option<string> {
    var opts := OptionsOf(argv);
    match Find(opts, flag)
    case Some(k) => if k + 1 < |opts| then Some(opts[k + 1]) else None
    case None => None
  }

  function DigitValue(c: char): nat
    requires '0' <= c <= '9'
  {
    (c - '0') as nat
  }

  /** A non-empty string of decimal digits, read as a number. */
  function ParseDecimal(s: string): (r: Option<nat>)
    ensures r.Some? ==> |s| > 0 && forall k :: 0 <= k < |s| ==> '0' <= s[k] <= '9'
    decreases |s|
  {
    if |s| == 0 || !('0' <= s[|s| - 1] <= '9') then None
    else if |s| == 1 then Some(DigitValue(s[0]))
    else
      match ParseDecimal(s[..|s| - 1])
      case None => None
      case Some(v) => Some(10 * v + DigitValue(s[|s| - 1]))
  }

  /** Whatever the artifact path, NsJail runs exactly the interpreter on that
      path: a path that looks like an option (even `--`) is never read as one. */
  lemma CommandRunsInterpreter(scriptPath: string)
    ensures ProgramOf(Command(scriptPath)) == [Interpreter, scriptPath]
    ensures OptionsOf(Command(scriptPath)) == NsjailOptions[..|NsjailOptions| - 1]
  {
    var argv := Command(scriptPath);
    var rest := argv[1..];
    assert rest[13] == "--";
    assert forall k :: 0 <= k < 13 ==> rest[k] == argv[k + 1] != "--";
    var r := Find(rest, "--");
    assert r.Some? by { assert "--" in rest; }
    assert r.value == 13;
    assert rest[..13] == NsjailOptions[..|NsjailOptions| - 1];
  }

  /** The limit NsJail receives is the 30 seconds of `SandboxTimeLimit`,
      strictly inside the outer deadline, so NsJail can stop the child and
      report before `subprocess.run` gives up on it. */
  lemma DeadlinesNest(scriptPath: string)
    ensures FlagValue(Command(scriptPath), "-t") == Some("30")
    ensures ParseDecimal("30") == Some(SandboxTimeLimit)
    ensures SandboxTimeLimit < Launch(scriptPath).timeoutSeconds
  {
    CommandRunsInterpreter(scriptPath);
    var opts := OptionsOf(Command(scriptPath));
    assert opts[1] == "-t" && opts[0] != "-t";
    assert Find(opts, "-t") == Some(1);
    assert "30"[..1] == "3";
  }
}

=== FILE: text.dfy ===
/** The Python string operations the executor relies on, as pure functions
    over `seq<char>`: `str.isspace` (also the meaning of `\s` in a regular
    expression), `str.strip`, substring membership and `str.index`,
    `str.split` on one character, and `str.replace(pat, '')`. */
module PyText {
  import opened Options

  /** The characters for which Python's `str.isspace` holds; `str.strip()`
      with no argument removes exactly these, and `\s` matches exactly these. */
  predicate IsSpace(c: char) {
    || ('\t' <= c && c <= '\r')
    || ('\U{1C}' <= c && c <= '\U{1F}')
    || c == ' '
    || c == '\U{85}'
    || c == '\U{A0}'
    || c == '\U{1680}'
    || ('\U{2000}' <= c && c <= '\U{200A}')
    || c == '\U{2028}'
    || c == '\U{2029}'
    || c == '\U{202F}'
    || c == '\U{205F}'
    || c == '\U{3000}'
  }

  predicate AllSpace(s: string) {
    forall i :: 0 <= i < |s| ==> IsSpace(s[i])
  }

  // ---------------------------------------------------------------------------
  // str.strip
  // ---------------------------------------------------------------------------

  /** Length of the longest all-whitespace prefix of `s`. */
  function LeadingSpaces(s: string): (n: nat)
    ensures n <= |s|
    ensures AllSpace(s[..n])
    ensures n < |s| ==> !IsSpace(s[n])
  {
    if |s| == 0 || !IsSpace(s[0]) then 0
    else
      var m := LeadingSpaces(s[1..]);
      assert s[..m + 1] == [s[0]] + s[1..][..m];
      m + 1
  }

  /** The three properties of `LeadingSpaces` pin its value down. */
  lemma LeadingSpacesUnique(s: string, n: nat)
    requires n <= |s| && AllSpace(s[..n])
    requires n < |s| ==> !IsSpace(s[n])
    ensures n == LeadingSpaces(s)
  {
    var m := LeadingSpaces(s);
    assert forall k :: 0 <= k < n ==> s[..n][k] == s[k];
    assert forall k :: 0 <= k < m ==> s[..m][k] == s[k];
  }

  /** Length of the longest all-whitespace suffix of `s`. */
  function TrailingSpaces(s: string): (n: nat)
    ensures n <= |s|
    ensures AllSpace(s[|s| - n..])
    ensures n < |s| ==> !IsSpace(s[|s| - n - 1])
  {
    if |s| == 0 || !IsSpace(s[|s| - 1]) then 0
    else
      var t := s[..|s| - 1];
      var m := TrailingSpaces(t);
      assert s[|s| - (m + 1)..] == t[|t| - m..] + [s[|s| - 1]];
      m + 1
  }

  /** `s[i..j]` is what stripping leaves of `s`: everything outside it is
      whitespace, and a non-empty remainder starts and ends with a
      non-whitespace character. */
  predicate StripBounds(s: string, i: int, j: int) {
    && 0 <= i <= j <= |s|
    && AllSpace(s[..i])
    && AllSpace(s[j..])
    && (i < j ==> !IsSpace(s[i]) && !IsSpace(s[j - 1]))
  }

  ghost predicate IsStripOf(s: string, r: string) {
    exists i, j :: StripBounds(s, i, j) && r == s[i..j]
  }

  /** Python's `s.strip()`. */
  function Strip(s: string): (r: string)
    ensures IsStripOf(s, r)
  {
    var i := LeadingSpaces(s);
    var t := s[i..];
    var n := TrailingSpaces(t);
    var j := i + |t| - n;
    assert s[j..] == t[|t| - n..];
    assert i < j ==> s[j - 1] == t[|t| - n - 1];
    assert StripBounds(s, i, j);
    s[i..j]
  }

  lemma StripBoundsUnique(s: string, i1: int, j1: int, i2: int, j2: int)
    requires StripBounds(s, i1, j1) && StripBounds(s, i2, j2)
    ensures s[i1..j1] == s[i2..j2]
  {
    // A non-whitespace character at either end of one remainder cannot lie
    // in the whitespace cut away by the other.
    assert forall k :: 0 <= k < i1 ==> s[..i1][k] == s[k];
    assert forall k :: 0 <= k < i2 ==> s[..i2][k] == s[k];
    assert forall k :: j1 <= k < |s| ==> s[j1..][k - j1] == s[k];
    assert forall k :: j2 <= k < |s| ==> s[j2..][k - j2] == s[k];
  }

  /** Stripping has exactly one possible result: `Strip` is fully specified
      by its contract. */
  lemma StripUnique(s: string, r: string)
    requires IsStripOf(s, r)
    ensures r == Strip(s)
  {
    var i, j :| StripBounds(s, i, j) && r == s[i..j];
    var i', j' :| StripBounds(s, i', j') && Strip(s) == s[i'..j'];
    StripBoundsUnique(s, i, j, i', j');
  }

  /** Whitespace around a string does not change what stripping leaves. */
  lemma StripPadded(a: string, x: string, b: string)
    requires AllSpace(a) && AllSpace(b)
    ensures Strip(a + x + b) == Strip(x)
  {
    var r := Strip(x);
    assert IsStripOf(x, r);
    var i, j :| StripBounds(x, i, j) && r == x[i..j];
    PaddedBounds(a, x, b, i, j);
    StripUnique(a + x + b, x[i..j]);
  }

  lemma PaddedBounds(a: string, x: string, b: string, i: int, j: int)
    requires AllSpace(a) && AllSpace(b) && StripBounds(x, i, j)
    ensures StripBounds(a + x + b, |a| + i, |a| + j)
    ensures (a + x + b)[|a| + i..|a| + j] == x[i..j]
  {
    var s := a + x + b;
    assert s[..|a| + i] == a + x[..i];
    AllSpaceConcat(a, x[..i]);
    assert s[|a| + j..] == x[j..] + b;
    AllSpaceConcat(x[j..], b);
    assert s[|a| + i..|a| + j] == x[i..j];
    assert i < j ==> s[|a| + i] == x[i] && s[|a| + j - 1] == x[j - 1];
  }

  lemma AllSpaceConcat(p: string, q: string)
    requires AllSpace(p) && AllSpace(q)
    ensures AllSpace(p + q)
  {
    forall k | 0 <= k < |p + q|
      ensures IsSpace((p + q)[k])
    {
      if k < |p| { assert (p + q)[k] == p[k]; } else { assert (p + q)[k] == q[k - |p|]; }
    }
  }

  /** A string with no whitespace at either end is its own strip. */
  lemma StripNoop(s: string)
    requires |s| > 0 ==> !IsSpace(s[0]) && !IsSpace(s[|s| - 1])
    ensures Strip(s) == s
  {
    assert s[..0] == [] && s[|s|..] == [];
    assert StripBounds(s, 0, |s|);
    assert s[0..|s|] == s;
    StripUnique(s, s);
  }

  lemma StripIdempotent(s: string)
    ensures Strip(Strip(s)) == Strip(s)
  {
    var r := Strip(s);
    assert IsStripOf(s, r);
    var i, j :| StripBounds(s, i, j) && r == s[i..j];
    StripNoop(s[i..j]);
  }

  // ---------------------------------------------------------------------------
  // Substring search: `pat in s` and `s.index(pat)`
  // ---------------------------------------------------------------------------

  predicate StartsWith(s: string, p: string) {
    |p| <= |s| && s[..|p|] == p
  }

  predicate OccursAt(s: string, pat: string, i: int) {
    0 <= i && i + |pat| <= |s| && s[i..i + |pat|] == pat
  }

  /** The first occurrence of `pat` in `s` at or after `k`. */
  function IndexFrom(s: string, pat: string, k: nat): (r: Option<nat>)
    requires k <= |s|
    ensures r.Some? ==> k <= r.value && OccursAt(s, pat, r.value)
    ensures r.Some? ==> forall j :: k <= j < r.value ==> !OccursAt(s, pat, j)
    ensures r.None? ==> forall j :: k <= j ==> !OccursAt(s, pat, j)
    decreases |s| - k
  {
    if OccursAt(s, pat, k) then Some(k)
    else if k == |s| then None
    else IndexFrom(s, pat, k + 1)
  }

  /** `s.find(pat)`, with `None` for -1; `s.index(pat)` is its value. */
  function IndexOf(s: string, pat: string): (r: Option<nat>)
    ensures r.Some? ==> OccursAt(s, pat, r.value)
    ensures r.Some? ==> forall j :: 0 <= j < r.value ==> !OccursAt(s, pat, j)
    ensures r.None? ==> forall j :: !OccursAt(s, pat, j)
  {
    IndexFrom(s, pat, 0)
  }

  /** Python's `pat in s`. */
  predicate Contains(s: string, pat: string) {
    IndexOf(s, pat).Some?
  }

  lemma IndexOfUnique(s: string, pat: string, i: nat)
    requires OccursAt(s, pat, i)
    requires forall j :: 0 <= j < i ==> !OccursAt(s, pat, j)
    ensures IndexOf(s, pat) == Some(i)
  {
  }

  lemma OccursInLeft(a: string, b: string, pat: string, i: int)
    requires OccursAt(a, pat, i)
    ensures OccursAt(a + b, pat, i)
  {
    assert (a + b)[i..i + |pat|] == a[i..i + |pat|];
  }

  lemma OccursInRight(a: string, b: string, pat: string, i: int)
    requires OccursAt(b, pat, i)
    ensures OccursAt(a + b, pat, |a| + i)
  {
    assert (a + b)[|a| + i..|a| + i + |pat|] == b[i..i + |pat|];
  }

  /** An occurrence of a pattern that does not contain `c` cannot straddle a
      `c`: it lies wholly on one side. */
  lemma OccursBesideSeparator(a: string, c: char, b: string, pat: string, i: int)
    requires c !in pat
    requires OccursAt(a + [c] + b, pat, i)
    ensures OccursAt(a, pat, i) || OccursAt(b, pat, i - |a| - 1)
  {
    var s := a + [c] + b;
    assert forall k :: i <= k < i + |pat| ==> pat[k - i] == s[k];
    assert s[|a|] == c;
    if i <= |a| < i + |pat| {
      assert false;
    } else if i + |pat| <= |a| {
      assert s[i..i + |pat|] == a[i..i + |pat|];
    } else {
      assert s[i..i + |pat|] == b[i - |a| - 1..i - |a| - 1 + |pat|];
    }
  }

  lemma NotContainsJoined(a: string, c: char, b: string, pat: string)
    requires c !in pat && !Contains(a, pat) && !Contains(b, pat)
    ensures !Contains(a + [c] + b, pat)
  {
    var s := a + [c] + b;
    if Contains(s, pat) {
      OccursBesideSeparator(a, c, b, pat, IndexOf(s, pat).value);
      assert false;
    }
  }

  /** When the part before a separator holds no occurrence, the first
      occurrence is the first one after it. */
  lemma IndexOfPastSeparator(a: string, c: char, b: string, pat: string)
    requires c !in pat && !Contains(a, pat) && Contains(b, pat)
    ensures IndexOf(a + [c] + b, pat) == Some(|a| + 1 + IndexOf(b, pat).value)
  {
    var s := a + [c] + b;
    var k := IndexOf(b, pat).value;
    OccursInRight(a + [c], b, pat, k);
    forall j | 0 <= j < |a| + 1 + k
      ensures !OccursAt(s, pat, j)
    {
      if OccursAt(s, pat, j) {
        OccursBesideSeparator(a, c, b, pat, j);
      }
    }
    IndexOfUnique(s, pat, |a| + 1 + k);
  }

  /** Text after a string holding the pattern does not move its first occurrence. */
  lemma IndexOfInPrefix(a: string, b: string, pat: string)
    requires Contains(a, pat)
    ensures IndexOf(a + b, pat) == IndexOf(a, pat)
  {
    var i := IndexOf(a, pat).value;
    OccursInLeft(a, b, pat, i);
    forall j | 0 <= j < i
      ensures !OccursAt(a + b, pat, j)
    {
      assert !OccursAt(a, pat, j) && j + |pat| <= |a|;
      assert (a + b)[j..j + |pat|] == a[j..j + |pat|];
    }
    IndexOfUnique(a + b, pat, i);
  }

  lemma IndexOfAtStart(s: string, pat: string)
    requires StartsWith(s, pat)
    ensures IndexOf(s, pat) == Some(0)
  {
    assert OccursAt(s, pat, 0);
  }

  /** A single character occurs as a pattern exactly where it stands. */
  lemma CharOccurs(s: string, c: char)
    ensures Contains(s, [c]) <==> c in s
  {
    if c in s {
      var i :| 0 <= i < |s| && s[i] == c;
      assert s[i..i + 1] == [c];
      assert OccursAt(s, [c], i);
    }
    if Contains(s, [c]) {
      var i := IndexOf(s, [c]).value;
      assert s[i..i + 1][0] == s[i];
    }
  }

  // ---------------------------------------------------------------------------
  // str.split(c) and its inverse
  // ---------------------------------------------------------------------------

  /** `c.join(parts)` for a one-character separator. */
  function Join(parts: seq<string>, c: char): string
    requires |parts| > 0
  {
    if |parts| == 1 then parts[0] else parts[0] + [c] + Join(parts[1..], c)
  }

  /** Python's `s.split(c)`: the pieces between the occurrences of `c`, at
      least one piece, and an empty piece after a trailing `c`. */
  function Split(s: string, c: char): (parts: seq<string>)
    ensures |parts| > 0
    ensures forall k :: 0 <= k < |parts| ==> c !in parts[k]
    ensures Join(parts, c) == s
    decreases |s|
  {
    match IndexOf(s, [c])
    case None =>
      CharOccurs(s, c);
      [s]
    case Some(k) =>
      var head := s[..k];
      var rest := Split(s[k + 1..], c);
      assert !Contains(head, [c]) by {
        assert s == head + s[k..];
        if Contains(head, [c]) {
          OccursInLeft(head, s[k..], [c], IndexOf(head, [c]).value);
        }
      }
      CharOccurs(head, c);
      assert s[k..k + 1] == [c];
      assert s == head + [c] + s[k + 1..];
      assert ([head] + rest)[1..] == rest;
      [head] + rest
  }

  lemma JoinAppend(p: seq<string>, q: seq<string>, c: char)
    requires |p| > 0 && |q| > 0
    ensures Join(p + q, c) == Join(p, c) + [c] + Join(q, c)
    decreases |p|
  {
    if |p| == 1 {
      assert (p + q)[1..] == q;
    } else {
      assert (p + q)[1..] == p[1..] + q;
      JoinAppend(p[1..], q, c);
    }
  }

  /** The pieces of a split are the only separator-free pieces that join
      back to the string. */
  lemma {:induction false} SplitUnique(s: string, c: char, parts: seq<string>)
    requires |parts| > 0
    requires forall k :: 0 <= k < |parts| ==> c !in parts[k]
    requires Join(parts, c) == s
    ensures Split(s, c) == parts
    decreases |parts|
  {
    if |parts| == 1 {
      CharOccurs(s, c);
    } else {
      var head := parts[0];
      var tail := Join(parts[1..], c);
      assert s == head + [c] + tail;
      CharOccurs(head, c);
      assert OccursAt(s, [c], |head|) by { assert s[|head|..|head| + 1] == [c]; }
      forall j | 0 <= j < |head| ensures !OccursAt(s, [c], j) {
      }
      IndexOfUnique(s, [c], |head|);
      assert s[..|head|] == head;
      assert s[|head| + 1..] == tail;
      SplitUnique(tail, c, parts[1..]);
    }
  }

  /** Splitting distributes over a separator. */
  lemma SplitAppend(a: string, b: string, c: char)
    ensures Split(a + [c] + b, c) == Split(a, c) + Split(b, c)
  {
    var p := Split(a, c);
    var q := Split(b, c);
    JoinAppend(p, q, c);
    PartsAvoid(p, q, c);
    SplitUnique(a + [c] + b, c, p + q);
  }

  lemma PartsAvoid(p: seq<string>, q: seq<string>, c: char)
    requires forall k :: 0 <= k < |p| ==> c !in p[k]
    requires forall k :: 0 <= k < |q| ==> c !in q[k]
    ensures forall k :: 0 <= k < |p + q| ==> c !in (p + q)[k]
  {
    forall k | 0 <= k < |p + q| ensures c !in (p + q)[k] {
      if k < |p| { assert (p + q)[k] == p[k]; } else { assert (p + q)[k] == q[k - |p|]; }
    }
  }

  /** The index of the first element of `lines` that contains `pat`. */
  function FirstWith(lines: seq<string>, pat: string): (r: Option<nat>)
    ensures r.Some? ==> r.value < |lines| && Contains(lines[r.value], pat)
    ensures r.Some? ==> forall j :: 0 <= j < r.value ==> !Contains(lines[j], pat)
    ensures r.None? ==> forall j :: 0 <= j < |lines| ==> !Contains(lines[j], pat)
  {
    if |lines| == 0 then None
    else if Contains(lines[0], pat) then Some(0)
    else
      match FirstWith(lines[1..], pat)
      case None => None
      case Some(k) => Some(k + 1)
  }

  lemma FirstWithUnique(lines: seq<string>, pat: string, k: nat)
    requires k < |lines| && Contains(lines[k], pat)
    requires forall j :: 0 <= j < k ==> !Contains(lines[j], pat)
    ensures FirstWith(lines, pat) == Some(k)
  {
  }

  /** A pattern free of the separator occurs in a joined string only if it
      occurs in one of the pieces. */
  lemma {:induction false} JoinedOccurrence(parts: seq<string>, c: char, pat: string)
    requires |parts| > 0 && c !in pat
    requires Contains(Join(parts, c), pat)
    ensures FirstWith(parts, pat).Some?
    decreases |parts|
  {
    if |parts| > 1 && !Contains(parts[0], pat) {
      var rest := Join(parts[1..], c);
      if !Contains(rest, pat) {
        NotContainsJoined(parts[0], c, rest, pat);
      }
      JoinedOccurrence(parts[1..], c, pat);
      assert parts[1..][FirstWith(parts[1..], pat).value] == parts[FirstWith(parts[1..], pat).value + 1];
    }
  }

  /** Conversely, a pattern in any piece occurs in the joined string. */
  lemma {:induction false} PartOccurrence(parts: seq<string>, c: char, pat: string, k: nat)
    requires k < |parts| && Contains(parts[k], pat)
    ensures Contains(Join(parts, c), pat)
    decreases k
  {
    if |parts| > 1 {
      var rest := Join(parts[1..], c);
      if k == 0 {
        OccursInLeft(parts[0], [c] + rest, pat, IndexOf(parts[0], pat).value);
        assert Join(parts, c) == parts[0] + ([c] + rest);
      } else {
        assert parts[1..][k - 1] == parts[k];
        PartOccurrence(parts[1..], c, pat, k - 1);
        OccursInRight(parts[0] + [c], rest, pat, IndexOf(rest, pat).value);
      }
    }
  }

  /** The first line with `pat` in `p + q`: the first in `p` if there is
      one, else the first in `q`, shifted past `p`. */
  lemma {:induction false} FirstWithAppend(p: seq<string>, q: seq<string>, pat: string)
    ensures FirstWith(p, pat).Some? ==> FirstWith(p + q, pat) == FirstWith(p, pat)
    ensures FirstWith(p, pat).None? && FirstWith(q, pat).Some? ==>
              FirstWith(p + q, pat) == Some(|p| + FirstWith(q, pat).value)
  {
    if FirstWith(p, pat).Some? {
      var k := FirstWith(p, pat).value;
      assert (p + q)[k] == p[k];
      assert forall j :: 0 <= j < k ==> (p + q)[j] == p[j];
      FirstWithUnique(p + q, pat, k);
    } else if FirstWith(q, pat).Some? {
      var k := FirstWith(q, pat).value;
      assert (p + q)[|p| + k] == q[k];
      forall j | 0 <= j < |p| + k
        ensures !Contains((p + q)[j], pat)
      {
        if j < |p| { assert (p + q)[j] == p[j]; } else { assert (p + q)[j] == q[j - |p|]; }
      }
      FirstWithUnique(p + q, pat, |p| + k);
    }
  }

  // ---------------------------------------------------------------------------
  // str.replace(pat, '')
  // ---------------------------------------------------------------------------

  /** Python's `s.replace(pat, '')`: one left-to-right pass deleting
      non-overlapping occurrences. Text that the deletions bring together is
      not scanned again, so the result can still contain `pat`. */
  function RemoveAll(s: string, pat: string): (r: string)
    requires |pat| > 0
    ensures |r| <= |s|
    ensures Contains(s, pat) ==> |r| <= |s| - |pat|
    decreases |s|
  {
    if |s| == 0 then s
    else if StartsWith(s, pat) then RemoveAll(s[|pat|..], pat)
    else
      var t := s[1..];
      assert Contains(s, pat) ==> Contains(t, pat) by {
        if Contains(s, pat) {
          var i := IndexOf(s, pat).value;
          assert i != 0;
          assert t[i - 1..i - 1 + |pat|] == s[i..i + |pat|];
          assert OccursAt(t, pat, i - 1);
        }
      }
      [s[0]] + RemoveAll(t, pat)
  }

  /** Text without the pattern comes back unchanged. */
  lemma {:induction false} RemoveAllAbsent(s: string, pat: string)
    requires |pat| > 0 && !Contains(s, pat)
    ensures RemoveAll(s, pat) == s
    decreases |s|
  {
    if |s| > 0 {
      assert !StartsWith(s, pat) by { if StartsWith(s, pat) { assert OccursAt(s, pat, 0); } }
      var t := s[1..];
      assert [s[0]] + t == s;
      if Contains(t, pat) {
        OccursInRight([s[0]], t, pat, IndexOf(t, pat).value);
      }
      RemoveAllAbsent(t, pat);
    }
  }

  /** Deleting a leading occurrence leaves the pattern-free rest intact. */
  lemma RemoveAllLeading(pat: string, x: string)
    requires |pat| > 0 && !Contains(x, pat)
    ensures RemoveAll(pat + x, pat) == x
  {
    assert (pat + x)[..|pat|] == pat;
    assert (pat + x)[|pat|..] == x;
    RemoveAllAbsent(x, pat);
  }

  /** Deleting from the first occurrence on: the text before it is kept,
      the occurrence goes, and the pass resumes right after it. With the
      no-occurrence case of `RemoveAll`'s contract this fixes the result. */
  lemma RemoveAllFirst(s: string, pat: string, i: nat)
    requires |pat| > 0 && IndexOf(s, pat) == Some(i)
    ensures RemoveAll(s, pat) == s[..i] + RemoveAll(s[i + |pat|..], pat)
  {
    RemoveAllBefore(s, pat, i);
  }

  lemma {:induction false} RemoveAllBefore(s: string, pat: string, i: nat)
    requires |pat| > 0 && OccursAt(s, pat, i)
    requires forall j :: 0 <= j < i ==> !OccursAt(s, pat, j)
    ensures RemoveAll(s, pat) == s[..i] + RemoveAll(s[i + |pat|..], pat)
    decreases i
  {
    if i == 0 {
      RemoveAllAtStart(s, pat);
    } else {
      var t := s[1..];
      ShiftBack(s, pat, i);
      RemoveAllStep(s, pat);
      RemoveAllBefore(t, pat, i - 1);
      var rest := RemoveAll(t[i - 1 + |pat|..], pat);
      Regroup(RemoveAll(s, pat), s[0], RemoveAll(t, pat), t[..i - 1], rest);
      assert t[i - 1 + |pat|..] == s[i + |pat|..];
      assert [s[0]] + t[..i - 1] == s[..i];
    }
  }

  lemma Regroup(whole: string, c: char, tail: string, front: string, back: string)
    requires whole == [c] + tail && tail == front + back
    ensures whole == ([c] + front) + back
  {
  }

  lemma RemoveAllAtStart(s: string, pat: string)
    requires |pat| > 0 && StartsWith(s, pat)
    ensures RemoveAll(s, pat) == s[..0] + RemoveAll(s[0 + |pat|..], pat)
  {
    assert s[..0] == [];
  }

  lemma RemoveAllStep(s: string, pat: string)
    requires |pat| > 0 && |s| > 0 && !StartsWith(s, pat)
    ensures RemoveAll(s, pat) == [s[0]] + RemoveAll(s[1..], pat)
  {
  }

  /** Past a first character that starts no occurrence, every occurrence
      moves back by one. */
  lemma ShiftBack(s: string, pat: string, i: nat)
    requires OccursAt(s, pat, i) && i > 0
    requires forall j :: 0 <= j < i ==> !OccursAt(s, pat, j)
    ensures !StartsWith(s, pat) && OccursAt(s[1..], pat, i - 1)
    ensures forall j :: 0 <= j < i - 1 ==> !OccursAt(s[1..], pat, j)
  {
    var t := s[1..];
    assert !OccursAt(s, pat, 0);
    assert t[i - 1..i - 1 + |pat|] == s[i..i + |pat|];
    forall j | 0 <= j < i - 1
      ensures !OccursAt(t, pat, j)
    {
      assert !OccursAt(s, pat, j + 1);
      assert j + 1 + |pat| <= |s| ==> t[j..j + |pat|] == s[j + 1..j + 1 + |pat|];
    }
  }

  // ---------------------------------------------------------------------------
  // Text-mode capture (universal newlines) and lines
  // ---------------------------------------------------------------------------

  predicate IsBreak(c: char) {
    c == '\n' || c == '\r'
  }

  /** How a captured stream reads in text mode with universal newlines, as
      `subprocess.run(..., text=True)` decodes it: every `\r\n` and every
      lone `\r` becomes `\n`. */
  function TextCapture(raw: string): (s: string)
    ensures '\r' !in s
    ensures '\r' !in raw ==> s == raw
    ensures |s| <= |raw|
    decreases |raw|
  {
    if |raw| == 0 then []
    else if raw[0] == '\r' then
      if |raw| > 1 && raw[1] == '\n' then "\n" + TextCapture(raw[2..]) else "\n" + TextCapture(raw[1..])
    else
      assert '\r' !in raw ==> '\r' !in raw[1..] by {
        assert forall k :: 0 <= k < |raw[1..]| ==> raw[1..][k] == raw[k + 1];
      }
      [raw[0]] + TextCapture(raw[1..])
  }

  /** Capture works piece by piece, unless a `\r` ending the first piece
      pairs with a `\n` opening the second. */
  lemma {:induction false} CaptureAppend(x: string, y: string)
    requires x == [] || x[|x| - 1] != '\r' || y == [] || y[0] != '\n'
    ensures TextCapture(x + y) == TextCapture(x) + TextCapture(y)
    decreases |x|
  {
    if x == [] {
      assert x + y == y;
    } else if x[0] != '\r' {
      var t := x[1..];
      assert x == [x[0]] + t && x + y == [x[0]] + (t + y);
      CaptureCons(x[0], t + y);
      CaptureCons(x[0], t);
      CaptureAppend(t, y);
      Regroup(TextCapture(x + y), x[0], TextCapture(t + y), TextCapture(t), TextCapture(y));
    } else if |x| > 1 && x[1] == '\n' {
      var t := x[2..];
      assert x == "\r\n" + t && x + y == "\r\n" + (t + y);
      CaptureCrLfHead(t + y);
      CaptureCrLfHead(t);
      CaptureAppend(t, y);
      Regroup(TextCapture(x + y), '\n', TextCapture(t + y), TextCapture(t), TextCapture(y));
    } else {
      var t := x[1..];
      assert x == "\r" + t && x + y == "\r" + (t + y);
      if t == [] {
        assert t + y == y;
      }
      CaptureCrHead(t + y);
      CaptureCrHead(t);
      CaptureAppend(t, y);
      Regroup(TextCapture(x + y), '\n', TextCapture(t + y), TextCapture(t), TextCapture(y));
    }
  }

  lemma CaptureCons(c: char, t: string)
    requires c != '\r'
    ensures TextCapture([c] + t) == [c] + TextCapture(t)
  {
    assert ([c] + t)[0] == c && ([c] + t)[1..] == t;
  }

  lemma CaptureCrLfHead(t: string)
    ensures TextCapture("\r\n" + t) == "\n" + TextCapture(t)
  {
    var u := "\r\n" + t;
    assert u[0] == '\r' && u[1] == '\n' && u[2..] == t;
  }

  lemma CaptureCrHead(t: string)
    requires t == [] || t[0] != '\n'
    ensures TextCapture("\r" + t) == "\n" + TextCapture(t)
  {
    var u := "\r" + t;
    assert u[0] == '\r' && u[1..] == t;
  }

  /** A `\r\n` pair is captured as one `\n`. */
  lemma CaptureCrLf(a: string, b: string)
    requires a == [] || a[|a| - 1] != '\r'
    ensures TextCapture(a + "\r\n" + b) == TextCapture(a) + "\n" + TextCapture(b)
  {
    var u := "\r\n" + b;
    assert a + "\r\n" + b == a + u;
    CaptureAppend(a, u);
    CaptureCrLfHead(b);
    assert TextCapture(a) + "\n" + TextCapture(b) == TextCapture(a) + TextCapture(u);
  }

  /** A `\r` not followed by `\n` is captured as a `\n`. */
  lemma CaptureLoneCr(a: string, b: string)
    requires b == [] || b[0] != '\n'
    ensures TextCapture(a + "\r" + b) == TextCapture(a) + "\n" + TextCapture(b)
  {
    var u := "\r" + b;
    assert a + "\r" + b == a + u;
    CaptureAppend(a, u);
    CaptureCrHead(b);
    assert TextCapture(a) + "\n" + TextCapture(b) == TextCapture(a) + TextCapture(u);
  }

  /** A line ended by `\n` is still ended by `\n` after capture. */
  lemma {:induction false} CaptureKeepsLineEnd(a: string)
    ensures var s := TextCapture(a + "\n"); |s| > 0 && s[|s| - 1] == '\n'
    decreases |a|
  {
    var u := a + "\n";
    if |a| == 0 {
      assert u == "\n";
    } else if a[0] == '\r' && |a| == 1 {
      assert u == "\r\n" && u[2..] == [];
    } else if a[0] == '\r' && a[1] == '\n' {
      assert u[2..] == a[2..] + "\n";
      CaptureKeepsLineEnd(a[2..]);
    } else {
      assert u[0] == a[0] && u[1..] == a[1..] + "\n";
      CaptureKeepsLineEnd(a[1..]);
    }
  }

  /** The text before the first line break, `\n` or `\r`. */
  function FirstLine(s: string): (r: string)
    ensures |r| <= |s| && s[..|r|] == r
    ensures forall k :: 0 <= k < |r| ==> !IsBreak(r[k])
    ensures |r| < |s| ==> IsBreak(s[|r|])
    ensures (forall k :: 0 <= k < |s| ==> !IsBreak(s[k])) ==> r == s
  {
    if |s| == 0 || IsBreak(s[0]) then []
    else
      var r := [s[0]] + FirstLine(s[1..]);
      assert forall k :: 1 <= k < |r| ==> r[k] == FirstLine(s[1..])[k - 1];
      r
  }

  /** The first line ends at the first line break. */
  lemma FirstLineAt(s: string, n: nat)
    requires n < |s| && IsBreak(s[n])
    requires forall k :: 0 <= k < n ==> !IsBreak(s[k])
    ensures FirstLine(s) == s[..n]
  {
  }

  /** After capture, a line ends at its first `\n` or `\r`; `rest` is the
      captured text after that break. */
  lemma {:induction false} CaptureBreaksLine(s: string) returns (rest: string)
    ensures TextCapture(s + "\n") == FirstLine(s) + "\n" + rest
    decreases |s|
  {
    var u := s + "\n";
    if |s| == 0 {
      rest := [];
      assert u == "\n";
    } else if IsBreak(s[0]) {
      assert FirstLine(s) == [];
      if s[0] == '\n' {
        rest := TextCapture(s[1..] + "\n");
        assert u[0] == '\n' && u[1..] == s[1..] + "\n";
      } else if |s| == 1 {
        rest := [];
        assert u == "\r\n" && u[2..] == [];
      } else if s[1] == '\n' {
        rest := TextCapture(s[2..] + "\n");
        assert u[0] == '\r' && u[1] == '\n' && u[2..] == s[2..] + "\n";
      } else {
        rest := TextCapture(s[1..] + "\n");
        assert u[0] == '\r' && u[1] == s[1] && u[1..] == s[1..] + "\n";
      }
      assert TextCapture(u) == "\n" + rest;
    } else {
      var inner := CaptureBreaksLine(s[1..]);
      rest := inner;
      assert u[0] == s[0] && u[1..] == s[1..] + "\n";
      assert TextCapture(u) == [s[0]] + TextCapture(s[1..] + "\n");
      assert FirstLine(s) == [s[0]] + FirstLine(s[1..]);
    }
  }
}

=== FILE: validation.dfy ===
/** `validate_script`: the checks a submitted script must pass before any
    file is written or any process started. */
module Validation {
  import opened PyText
  import opened Regex

  const MaxScriptLength := 100000

  const EmptyScript := "Script must be a non-empty string"
  const ScriptTooLarge := "Script too large (max 100KB)"
  const MissingMain := "Script must contain a 'def main()' function"

  /** `def\s+main\s*\(` */
  const MainDefPattern: seq<Token> :=
    [Lit("def"), Spaces(true), Lit("main"), Spaces(false), Lit("(")]

  /** `__import__\s*\(\s*['"]os['"]` */
  const OsImportPattern: seq<Token> :=
    [Lit("__import__"), Spaces(false), Lit("("), Spaces(false), OneOf("'\""), Lit("os"), OneOf("'\"")]

  /** `eval\s*\(` */
  const EvalPattern: seq<Token> := [Lit("eval"), Spaces(false), Lit("(")]

  /** `exec\s*\(` */
  const ExecPattern: seq<Token> := [Lit("exec"), Spaces(false), Lit("(")]

  /** The advisory patterns and their warnings, in the order they are tried. */
  const Advisories: seq<(seq<Token>, string)> := [
    (OsImportPattern, "Suspicious import pattern detected"),
    (EvalPattern, "eval() usage detected"),
    (ExecPattern, "exec() usage detected")
  ]

  /** The value of the request's `script` field: a string, or some other
      JSON value (null, a number, a list, ...). */
  datatype Submitted = Text(text: string) | NotText

  /** The pair `validate_script` returns: `(True, None)` or `(False, reason)`. */
  datatype Verdict = Valid | Invalid(reason: string)

  /** The verdict together with the warnings the advisory scan logs. */
  datatype Checked = Checked(verdict: Verdict, warnings: seq<string>)

  /** The entry-point pattern written out by hand: "def" at `i`, one or more
      whitespace characters up to `k1`, "main" at `k1`, zero or more
      whitespace characters up to `k2`, and "(" at `k2`. No word boundary is
      required on either side. */
  ghost predicate MainDefinitionAt(s: string, i: int, k1: int, k2: int) {
    && 0 <= i && i + 3 < k1 && k1 + 4 <= k2 < |s|
    && s[i..i + 3] == "def"
    && AllSpace(s[i + 3..k1])
    && s[k1..k1 + 4] == "main"
    && AllSpace(s[k1 + 4..k2])
    && s[k2] == '('
  }

  ghost predicate HasMainDefinition(s: string) {
    exists i, k1, k2 :: MainDefinitionAt(s, i, k1, k2)
  }

  lemma PatternsUnambiguous()
    ensures Unambiguous(MainDefPattern)
    ensures forall k :: 0 <= k < |Advisories| ==> Unambiguous(Advisories[k].0)
  {
    assert OpensSolid(Lit("main")) && OpensSolid(Lit("("));
    assert OpensSolid(OneOf("'\""));
  }

  lemma MainPatternTails()
    ensures MainDefPattern[1..] == [Spaces(true), Lit("main"), Spaces(false), Lit("(")]
    ensures MainDefPattern[2..] == [Lit("main"), Spaces(false), Lit("(")]
    ensures MainDefPattern[3..] == [Spaces(false), Lit("(")]
    ensures MainDefPattern[4..] == [Lit("(")]
    ensures MainDefPattern[5..] == []
  {
  }

  lemma MainDefinitionMatches(s: string, i: int, k1: int, k2: int)
    requires MainDefinitionAt(s, i, k1, k2)
    ensures MatchesSpan(MainDefPattern, s, i, k2 + 1)
  {
    ParenMatches(s, k2);
    MainMatches(s, k1, k2);
    MainPatternTails();
    var p, p1 := MainDefPattern, MainDefPattern[1..];
    assert p[0] == Lit("def") && p1[0] == Spaces(true) && p1[1..] == p[2..];
    SpacesMatch(p1, s, i + 3, k1, k2 + 1);
    LitMatch(p, "def", s, i, k2 + 1);
  }

  lemma MainMatches(s: string, k1: int, k2: int)
    requires 0 <= k1 && k1 + 4 <= k2 < |s| && s[k1..k1 + 4] == "main" && AllSpace(s[k1 + 4..k2])
    requires MatchesSpan(MainDefPattern[4..], s, k2, k2 + 1)
    ensures MatchesSpan(MainDefPattern[2..], s, k1, k2 + 1)
  {
    MainPatternTails();
    var p2, p3 := MainDefPattern[2..], MainDefPattern[3..];
    assert p2[0] == Lit("main") && p3[0] == Spaces(false) && p2[1..] == p3 && p3[1..] == MainDefPattern[4..];
    SpacesMatch(p3, s, k1 + 4, k2, k2 + 1);
    LitMatch(p2, "main", s, k1, k2 + 1);
  }

  lemma ParenMatches(s: string, k2: int)
    requires 0 <= k2 < |s| && s[k2] == '('
    ensures MatchesSpan(MainDefPattern[4..], s, k2, k2 + 1)
  {
    MainPatternTails();
    var p4 := MainDefPattern[4..];
    assert p4[0] == Lit("(") && p4[1..] == [];
    assert s[k2..k2 + 1] == "(";
    assert MatchesSpan([], s, k2 + 1, k2 + 1);
    LitMatch(p4, "(", s, k2, k2 + 1);
  }

  lemma MatchIsMainDefinition(s: string, i: int, j: int)
    requires MatchesSpan(MainDefPattern, s, i, j)
    ensures HasMainDefinition(s)
  {
    var k1 := DefPart(s, i, j);
    var k2 := MainPart(s, k1, j);
    ParenPart(s, k2, j);
    assert MainDefinitionAt(s, i, k1, k2);
  }

  lemma DefPart(s: string, i: int, j: int) returns (k1: int)
    requires MatchesSpan(MainDefPattern, s, i, j)
    ensures 0 <= i && i + 3 < k1 <= j <= |s| && s[i..i + 3] == "def" && AllSpace(s[i + 3..k1])
    ensures MatchesSpan(MainDefPattern[2..], s, k1, j)
  {
    var p := MainDefPattern;
    MainPatternTails();
    var p1 := p[1..];
    assert p[0] == Lit("def") && p1[0] == Spaces(true) && p1[1..] == p[2..];
    LitStep(p, "def", s, i, j);
    k1 := SpacesStep(p1, s, i + 3, j);
  }

  lemma MainPart(s: string, k1: int, j: int) returns (k2: int)
    requires MatchesSpan(MainDefPattern[2..], s, k1, j)
    ensures 0 <= k1 && k1 + 4 <= k2 <= j <= |s| && s[k1..k1 + 4] == "main" && AllSpace(s[k1 + 4..k2])
    ensures MatchesSpan(MainDefPattern[4..], s, k2, j)
  {
    MainPatternTails();
    var p2, p3 := MainDefPattern[2..], MainDefPattern[3..];
    assert p2[0] == Lit("main") && p3[0] == Spaces(false) && p2[1..] == p3 && p3[1..] == MainDefPattern[4..];
    LitStep(p2, "main", s, k1, j);
    k2 := SpacesStep(p3, s, k1 + 4, j);
  }

  lemma ParenPart(s: string, k2: int, j: int)
    requires MatchesSpan(MainDefPattern[4..], s, k2, j)
    ensures 0 <= k2 < j <= |s| && s[k2] == '('
  {
    MainPatternTails();
    var p4 := MainDefPattern[4..];
    assert p4[0] == Lit("(");
    LitStep(p4, "(", s, k2, j);
    assert s[k2..k2 + 1][0] == s[k2];
  }

  /** The token pattern means exactly the hand-written entry-point shape. */
  lemma MainPatternMeaning(s: string)
    ensures Found(MainDefPattern, s) <==> HasMainDefinition(s)
  {
    if HasMainDefinition(s) {
      var i, k1, k2 :| MainDefinitionAt(s, i, k1, k2);
      MainDefinitionMatches(s, i, k1, k2);
    }
    if Found(MainDefPattern, s) {
      var i, j :| MatchesSpan(MainDefPattern, s, i, j);
      MatchIsMainDefinition(s, i, j);
    }
  }

  /** `re.search(MainDefPattern, s)` decides the hand-written shape. */
  function HasMain(s: string): (b: bool)
    ensures b <==> HasMainDefinition(s)
  {
    PatternsUnambiguous();
    SearchCorrect(MainDefPattern, s);
    MainPatternMeaning(s);
    Search(MainDefPattern, s)
  }

  /** The warnings the advisory loop over `rules` logs (each is logged as
      "Potentially unsafe script: " followed by the warning): one per rule
      whose pattern is found, in rule order. */
  function Scan(s: string, rules: seq<(seq<Token>, string)>): (log: seq<string>)
    requires forall a, b :: 0 <= a < b < |rules| ==> rules[a].1 != rules[b].1
    ensures |log| <= |rules|
    ensures forall m :: m in log ==> exists k :: 0 <= k < |rules| && m == rules[k].1
    ensures forall k :: 0 <= k < |rules| ==> (rules[k].1 in log <==> Search(rules[k].0, s))
  {
    if |rules| == 0 then []
    else
      var rest := Scan(s, rules[1..]);
      assert forall k :: 1 <= k < |rules| ==> rules[1..][k - 1] == rules[k];
      (if Search(rules[0].0, s) then [rules[0].1] else []) + rest
  }

  /** `x` and `y` are the warnings of two rules from position `lo` on, the
      rule for `x` coming first. */
  predicate Precedes(x: string, y: string, rules: seq<(seq<Token>, string)>, lo: nat) {
    exists ka, kb :: lo <= ka < kb < |rules| && x == rules[ka].1 && y == rules[kb].1
  }

  /** `log` lists warnings of `rules` from position `lo` on, in rule order. */
  predicate InRuleOrder(log: seq<string>, rules: seq<(seq<Token>, string)>, lo: nat) {
    forall a, b :: 0 <= a < b < |log| ==> Precedes(log[a], log[b], rules, lo)
  }

  /** The warnings come in rule order, each at most once. */
  lemma {:induction false} ScanInRuleOrder(s: string, rules: seq<(seq<Token>, string)>)
    requires forall a, b :: 0 <= a < b < |rules| ==> rules[a].1 != rules[b].1
    ensures InRuleOrder(Scan(s, rules), rules, 0)
    ensures var log := Scan(s, rules);
      forall a, b :: 0 <= a < b < |log| ==> log[a] != log[b]
    decreases |rules|
  {
    var log := Scan(s, rules);
    if |rules| > 0 {
      var tail := rules[1..];
      var rest := Scan(s, tail);
      ScanInRuleOrder(s, tail);
      OrderShift(rest, rules);
      assert log == (if Search(rules[0].0, s) then [rules[0].1] else []) + rest;
      OrderPrepend(Search(rules[0].0, s), rest, rules);
    }
    forall a, b | 0 <= a < b < |log|
      ensures log[a] != log[b]
    {
      assert Precedes(log[a], log[b], rules, 0);
      var ka, kb :| 0 <= ka < kb < |rules| && log[a] == rules[ka].1 && log[b] == rules[kb].1;
    }
  }

  lemma OrderShift(rest: seq<string>, rules: seq<(seq<Token>, string)>)
    requires |rules| > 0 && InRuleOrder(rest, rules[1..], 0)
    requires forall m :: m in rest ==> exists k :: 0 <= k < |rules[1..]| && m == rules[1..][k].1
    ensures InRuleOrder(rest, rules, 1)
    ensures forall m :: m in rest ==> exists k :: 1 <= k < |rules| && m == rules[k].1
  {
    var tail := rules[1..];
    forall a, b | 0 <= a < b < |rest|
      ensures Precedes(rest[a], rest[b], rules, 1)
    {
      var ka, kb :| 0 <= ka < kb < |tail| && rest[a] == tail[ka].1 && rest[b] == tail[kb].1;
      assert rest[a] == rules[ka + 1].1 && rest[b] == rules[kb + 1].1;
    }
    forall m | m in rest
      ensures exists k :: 1 <= k < |rules| && m == rules[k].1
    {
      var k :| 0 <= k < |tail| && m == tail[k].1;
      assert m == rules[k + 1].1;
    }
  }

  lemma OrderPrepend(found: bool, rest: seq<string>, rules: seq<(seq<Token>, string)>)
    requires |rules| > 0 && InRuleOrder(rest, rules, 1)
    requires forall m :: m in rest ==> exists k :: 1 <= k < |rules| && m == rules[k].1
    ensures InRuleOrder((if found then [rules[0].1] else []) + rest, rules, 0)
  {
    var head := if found then [rules[0].1] else [];
    var log := head + rest;
    forall a, b | 0 <= a < b < |log|
      ensures Precedes(log[a], log[b], rules, 0)
    {
      var h := |head|;
      assert log[b] == rest[b - h];
      if h == 1 && a == 0 {
        assert rest[b - h] in rest;
        var k :| 1 <= k < |rules| && rest[b - h] == rules[k].1;
        assert log[a] == rules[0].1;
      } else {
        assert log[a] == rest[a - h];
        var ka, kb :| 1 <= ka < kb < |rules| && rest[a - h] == rules[ka].1 && rest[b - h] == rules[kb].1;
      }
    }
  }

  /** `validate_script`. The verdict is decided by the three checks alone, in
      order; the advisory scan runs only on a script that passed them and
      contributes log lines, never a verdict. */
  function ValidateScript(x: Submitted): (r: Checked)
    ensures r.verdict == Valid <==> x.Text? && 0 < |x.text| <= MaxScriptLength && HasMainDefinition(x.text)
    ensures x.NotText? || x.text == [] ==> r.verdict == Invalid(EmptyScript)
    ensures x.Text? && |x.text| > MaxScriptLength ==> r.verdict == Invalid(ScriptTooLarge)
    ensures x.Text? && 0 < |x.text| <= MaxScriptLength && !HasMainDefinition(x.text) ==>
              r.verdict == Invalid(MissingMain)
    ensures r.verdict.Invalid? ==> r.warnings == []
    ensures r.verdict == Valid ==>
              forall k :: 0 <= k < |Advisories| ==>
                (Advisories[k].1 in r.warnings <==> Found(Advisories[k].0, x.text))
  {
    if x.NotText? || |x.text| == 0 then Checked(Invalid(EmptyScript), [])
    else if |x.text| > MaxScriptLength then Checked(Invalid(ScriptTooLarge), [])
    else if !HasMain(x.text) then Checked(Invalid(MissingMain), [])
    else
      AdvisoriesDistinct();
      PatternsUnambiguous();
      assert forall k :: 0 <= k < |Advisories| ==> (Search(Advisories[k].0, x.text) <==> Found(Advisories[k].0, x.text)) by {
        forall k | 0 <= k < |Advisories| { SearchCorrect(Advisories[k].0, x.text); }
      }
      Checked(Valid, Scan(x.text, Advisories))
  }

  lemma AdvisoriesDistinct()
    ensures forall a, b :: 0 <= a < b < |Advisories| ==> Advisories[a].1 != Advisories[b].1
  {
    assert Advisories[0].1[0] == 'S' && Advisories[1].1[0] == 'e' && Advisories[2].1[0] == 'e';
    assert Advisories[1].1[1] == 'v' && Advisories[2].1[1] == 'x';
  }
}
